=== FILE: README.md ===
# Pitch platform core, modelled in Dafny

The repository is a web app. Startup founders upload a video pitch of at most
sixty seconds. Investors swipe through those pitches in a vertical feed, like
them and leave feedback. This project models the decision rules and small
state machines inside four of its components, written as pure functions over
immutable records:

- **Signup wizard** (`signup.dfy`, module `Signup`):
  - the four steps and the per-step validity test
  - forward navigation gated by that test, backward navigation not gated
  - the segmented progress bar
  - the funding-stage slider
  - the checkbox and industry toggles, with the label-to-id slug
  - the rows the final submission writes and where it redirects
- **Text helpers** (`text.dfy`, module `Text`):
  - `trim()` and the "non-blank" test
  - ASCII `toLowerCase()` and literal global `replace`
  - the unanchored email test `\S+@\S+\.\S+`, given both as an existential
    over string positions and as a one-pass scanner proved equivalent to it
- **Feed** (`feed.dfy`, module `Feed`):
  - page fetching: the `[5p, 5p+4]` range, `hasMore`, the liked-flag join,
    and degrading to an empty page
  - the load / load-more state machine with its in-flight guard, fetching as
    the program does, with the login redirect it can trigger
  - the slide-change rule
  - the like toggle, including a like write that fails
- **Feedback bar** (`feedback_bar.dfy`, module `FeedbackBar`): the text
  buffer, the send button's enable rule and the text send handler.
- **Video upload** (`upload.dfy`, module `VideoUpload`):
  - the duration gate
  - the button rule
  - the storage path `<user>/<timestamp>-<file name>`
  - the upload with its error paths
- **Pitch table** (`pitches.dfy`, module `PitchTable`): one pitch row per
  founder, maintained by an upsert on `user_id`.
- **Dashboard** (`dashboard.dfy`, module `Dashboard`):
  - assembly of the founder's page from its query results: video address,
    view count with its default, and feedback with audio addresses; a
    failed pitch query reads as "no pitch"
  - an end-to-end lemma linking a successful upload to what the dashboard
    then shows
- **Shared pieces** (`common.dfy`, module `Common`):
  - `Option`
  - `PublicUrl`, a stand-in for the storage service's address function
  - `SplitFirst`, used to read a storage path back

The backend is not modelled as a service:
- The services' answers are inputs: a session or user, query errors, the
  outcome of each like write, a view count, feedback rows.
- The tables the model reasons about are plain values: a pitch sequence, a
  profile map, a like set and a set of stored objects.

## Model

| member | source | states |
|---|---|---|
| Text.LeadingWhitespace | src/app/signup/page.tsx:213-214 | the counted prefix is all whitespace and the next character is not, as `trim()` strips it |
| Text.TrailingWhitespace | src/app/signup/page.tsx:213-214 | the counted suffix is all whitespace and the character before it is not |
| Text.Trim | src/app/signup/page.tsx:213-214 | the result is the text with an all-whitespace prefix and an all-whitespace suffix cut off; it is empty exactly when the text is all whitespace, and otherwise starts and ends with a visible character, so the cut prefix and suffix are the longest ones |
| Text.IsBlank | src/app/signup/page.tsx:213-214 | `trim() === ""` holds exactly when the text contains no non-whitespace character |
| Text.ToLower | src/app/signup/page.tsx:420-421 | length is kept; each upper-case letter becomes its lower-case partner (code plus 32); lower-case letters and every other character are unchanged |
| Text.ReplaceFromRemoves | src/app/signup/page.tsx:422-423 | replacing every copy of a character by text that does not contain it leaves no copy |
| Text.ReplaceFrom | src/app/signup/page.tsx:422-423 | a replacement as long as the pattern keeps the length of the scanned text |
| Text.ReplaceAll | src/app/signup/page.tsx:422-423 | the global replace keeps the length for a same-length replacement, returns a text without the pattern's first character unchanged, and leaves no copy of a one-character pattern that the replacement does not contain |
| Text.ReplaceFromStart | src/app/signup/page.tsx:422-423 | a scan from the start returns a text without the pattern's first character unchanged and removes every copy of a one-character pattern the replacement lacks |
| Text.ReplaceFromSkip | src/app/signup/page.tsx:537-538 | a stretch of text in which the pattern cannot start is copied unchanged by the global replace |
| Text.ReplaceFromIdentity | src/app/signup/page.tsx:535-538 | a replace whose pattern cannot start anywhere in the rest of the text returns that rest unchanged |
| Text.Slug | src/app/signup/page.tsx:420-423 | a checkbox id never contains a space |
| Text.EmailPatternCore | src/app/signup/page.tsx:229 | the unanchored pattern matches exactly when some '@' has a visible character before it and a visible run after it that reaches a '.' followed by a visible character |
| Text.EmailScan | src/app/signup/page.tsx:229 | the left-to-right scan answers true exactly when such a shortest match exists |
| Text.EmailShaped | src/app/signup/page.tsx:229 | the executable email test agrees with the regular expression's existential meaning on every string |
| Signup.StepTwoValid | src/app/signup/page.tsx:210-223 | a startup needs a visible name, a visible website and a goal; an angel or VC needs an industry and a stage; every other role passes |
| Signup.StepValid | src/app/signup/page.tsx:206-237 | step 1 needs a role; step 3 needs visible first and last names; step 4 needs an email matching the pattern, a visible phone, a password of at least 8 characters and a matching confirmation; any other step number is invalid |
| Signup.NextStep | src/app/signup/page.tsx:240-243 | the step changes only from a valid step, and only by one; a valid step below 4 always advances; step 4 never moves; the draft is untouched and the step stays in 1..4 |
| Signup.PrevStep | src/app/signup/page.tsx:244-246 | any step after the first goes back by one whatever its validity; step 1 stays; the draft is untouched |
| Signup.Segments | src/app/signup/page.tsx:64-79 | the segments before the current step are full, those after it are empty, and the current one is full exactly when the step is valid |
| Signup.SegmentsCount | src/app/signup/page.tsx:64-79 | the bar shows `current - 1` full segments, plus one when the current step is valid |
| Signup.SegmentsPrefixCount | src/app/signup/page.tsx:64-79 | the full-segment count of any prefix of the bar, the induction behind the count above |
| Signup.FindIndex | src/app/signup/page.tsx:140-142 | `findIndex` gives -1 exactly when the value is absent, otherwise its first position |
| Signup.SliderPosition | src/app/signup/page.tsx:140-142 | every funding stage has a slider position in 0..4 that shows that stage |
| Signup.SliderStage | src/app/signup/page.tsx:151 | moving the slider to a position selects the stage that is then shown at that same position |
| Signup.Without | src/app/signup/page.tsx:437 | the filter removes every copy of the value and keeps the count of every other value; a list without the value is unchanged |
| Signup.WithoutOne | src/app/signup/page.tsx:437 | on a single element the filter keeps it exactly when it differs from the value |
| Signup.WithoutConcat | src/app/signup/page.tsx:437 | filtering a concatenation filters each part and concatenates the results, so the kept elements stay in their order |
| Signup.WithoutAppend | src/app/signup/page.tsx:494-499 | filtering a value out of a list that ends with it equals filtering it out of the list before the append |
| Signup.ToggleIndustry | src/app/signup/page.tsx:488-500 | a selected industry is filtered out (every copy removed, the other entries kept in their order); an unselected one is appended |
| Signup.ToggleIndustryTwice | src/app/signup/page.tsx:488-500 | selecting an unselected industry twice gives back the original list |
| Signup.CheckboxChange | src/app/signup/page.tsx:429-438 | checking appends the id; unchecking filters out every copy and keeps the other ids in their order |
| Signup.CheckboxClickIsToggle | src/app/signup/page.tsx:426-438 | a click on a checkbox, which reports the opposite of "id is in the list", behaves like the industry toggle |
| Signup.StageSlugSeriesA | src/app/signup/page.tsx:535-538 | "Series A" slugs to "series-a" |
| Signup.StageSlugFamilyFriends | src/app/signup/page.tsx:535-538 | "Family & Friends" slugs to "family-friends" |
| Signup.StageSlugPreSeed | src/app/signup/page.tsx:535-538 | "Pre-Seed" slugs to "pre-seed" |
| Signup.StageSlugSeed | src/app/signup/page.tsx:535-538 | "Seed" slugs to "seed" |
| Signup.StageSlugs | src/app/signup/page.tsx:91 | each of the four stage captions slugs to the matching investment-stage id |
| Signup.StageId | src/app/signup/page.tsx:535-538 | the id of stage checkbox i is exactly the i-th investment-stage id |
| Signup.GoalId | src/app/signup/page.tsx:420-423 | a goal checkbox id contains no space |
| Signup.ApplyEdit | src/app/signup/page.tsx:343-712 | each form handler sets its own field (role, texts, funding stage, ticket slider) or applies its checkbox or industry toggle, and keeps every other field; every edit the form can produce keeps the ticket-size index on a label |
| Signup.RunKeepsWizardOk | src/app/signup/page.tsx:240-246 | after any sequence of edits and Next/Prev presses the wizard is on a step in 1..4 and the ticket index addresses a label |
| Signup.WritePlan | src/app/signup/page.tsx:266-312 | every row carries the new user id; a startup writes its details (description "Test") and one goal row per goal, in order; an angel or VC writes the label of its ticket index, one row per industry and one per stage; any other role writes nothing |
| Signup.Submit | src/app/signup/page.tsx:248-318 | nothing happens exactly when the step is invalid; a rejected sign-up fails with that auth message and a missing user with the "not created" error, both writing nothing; when the insert at position k fails, exactly the first k inserts are written and the error names insert k's table and carries the service's message; success writes the whole plan and goes to /dashboard exactly for a startup, otherwise to /feed |
| Signup.RedirectTarget | src/app/signup/page.tsx:317-318 | the target is /dashboard exactly for a startup and /feed otherwise |
| PitchTable.RowIndex | src/app/dashboard/page.tsx:85-89 | -1 exactly when the founder has no row, otherwise the position of the founder's first row |
| PitchTable.Upsert | src/app/dashboard/VideoUpload.tsx:94-99 | one row per founder is kept; an existing row gets the new video and no other row changes; otherwise one row is appended |
| PitchTable.SingleRowFor | src/app/dashboard/page.tsx:85-89 | the single-row query finds nothing exactly when the founder has no row; what it finds is the founder's row |
| PitchTable.UpsertThenSingle | src/app/dashboard/VideoUpload.tsx:94-99 | after an upsert the single-row query finds the founder's row with the new video |
| VideoUpload.SelectFile | src/app/dashboard/VideoUpload.tsx:46-63 | a video over 60 seconds sets the length error, clears only the input and keeps any earlier file; one of at most 60 seconds becomes the file; the error is cleared on selection; no selection changes nothing |
| VideoUpload.Message | src/app/dashboard/VideoUpload.tsx:55-106 | a storage or database failure shows the service's own message; the component's own errors show a fixed, non-empty text |
| VideoUpload.OwnMessagesDistinct | src/app/dashboard/VideoUpload.tsx:55-79 | the length error, the missing-file error and the missing-user error read differently |
| VideoUpload.StoragePath | src/app/dashboard/VideoUpload.tsx:81 | the path is user id, '/', timestamp, '-', file name (length stated) |
| VideoUpload.StoragePathRoundTrip | src/app/dashboard/VideoUpload.tsx:81 | user id, timestamp and file name can be read back from the path when the id has no '/' and the timestamp no '-' |
| VideoUpload.Upload | src/app/dashboard/VideoUpload.tsx:65-112 | no file: the choose-file error and no write; otherwise uploading ends false; a missing user or a storage error writes nothing; a database error keeps the stored object; success stores the object and upserts the pitch; the page refreshes exactly when no error is left |
| VideoUpload.ClickUpload | src/app/dashboard/VideoUpload.tsx:145-147 | a click on the disabled button (uploading, or no file) does nothing; an enabled one runs the upload, never reports a missing file and leaves the button enabled |
| VideoUpload.EnabledButtonHasFile | src/app/dashboard/VideoUpload.tsx:145-147 | with the button enabled the upload never reports a missing file and leaves the button enabled again |
| VideoUpload.ReuploadReplaces | src/app/dashboard/VideoUpload.tsx:94-99 | a founder who already has a pitch keeps exactly as many pitch rows, and a successful upload changes that row's video |
| Feed.RangeRows | src/app/feed/page.tsx:429-436 | the rows from positions 5p to 5p+4 that exist, in backend order |
| Feed.RangeFrom | src/app/feed/page.tsx:429 | page p starts at the multiple 5p of the page size |
| Feed.RangeTo | src/app/feed/page.tsx:430 | page p is 5 positions long and the next page starts right after it, so pages neither overlap nor leave gaps |
| Feed.LikedIds | src/app/feed/page.tsx:441-447 | an id is liked exactly when it is on the page and the viewer has a like for it |
| Feed.Decorate | src/app/feed/page.tsx:448-457 | the decorated page keeps the rows and their order; each pitch keeps its founder's joined profile and is flagged liked exactly when its id is in the liked set |
| Feed.FetchPageIn | src/app/feed/page.tsx:420-464 | no session: empty page, no more, login redirect; a query error: empty page, no more; otherwise the page is rows 5p..5p+4 of the backend, each with its founder's profile; `hasMore` holds exactly when five came back; `isLiked` matches the viewer's likes, or is false when the likes query fails |
| Feed.FetchPage | src/app/feed/page.tsx:448-451 | corrected: every stored video's address is that of its path in the bucket the upload writes to |
| Feed.FetchPageAsWritten | src/app/feed/page.tsx:448-451 | as written: no stored video gets the address of its path in the bucket the upload writes to |
| Feed.BucketsDiffer | src/app/feed/page.tsx:449-450 | the bucket the feed names and the upload's bucket give different addresses for every path |
| Feed.FeedBucketMismatch | src/app/feed/page.tsx:448-451 | as written, a pitch's address is not the address of the object the upload stored; the corrected fetch gives that address |
| Feed.Mount | src/app/feed/page.tsx:466-474 | the first load sets the list to page 0 as the program fetches it, the cursor to 1, and records the login redirect exactly when there is no session |
| Feed.BeginLoadMore | src/app/feed/page.tsx:475-477 | a load-more request is refused while one is in flight or when no more pages exist; otherwise page `page` is requested |
| Feed.FinishLoadMore | src/app/feed/page.tsx:478-482 | the new page is appended, the cursor advances by one, the in-flight flag clears, and a login redirect of the fetch is recorded |
| Feed.SessionlessLoadMore | src/app/feed/page.tsx:424-427 | a load-more without a session records the login redirect, ends paging and appends nothing |
| Feed.LoadMoreNotReentrant | src/app/feed/page.tsx:475-477 | while a page is in flight a second request is refused |
| Feed.InitialFeedInv | src/app/feed/page.tsx:412-416 | the empty starting state satisfies the feed invariant |
| Feed.MountInv | src/app/feed/page.tsx:466-474 | after the first load the list is a prefix of the backend with at most 5 per cursor step, exactly 5 while more may exist |
| Feed.FinishLoadMoreInv | src/app/feed/page.tsx:475-483 | appending the page at the cursor keeps that invariant, whatever the services reply |
| Feed.FeedRunInv | src/app/feed/page.tsx:466-492 | any run of slide changes and arriving pages keeps the list a prefix of the backend and in step with the cursor |
| Feed.SlideCommands | src/app/feed/page.tsx:487-492 | one command per slide, the pitch count plus the loader slide while more exist; only the active pitch slide plays and the loader has no video |
| Feed.SlideCount | src/app/feed/page.tsx:530-541 | one slide per pitch, plus exactly one more (the loader) when more pitches may exist |
| Feed.CountPlayAt | src/app/feed/page.tsx:487-492 | a command list that plays at most at one index has that many playing slides |
| Feed.OnlyActivePlays | src/app/feed/page.tsx:487-492 | exactly one video plays when the active slide is a pitch, none on the loader slide |
| Feed.OnSlideChange | src/app/feed/page.tsx:485-493 | more is requested exactly when the active index is at least the pitch count minus 2, more exist and nothing is in flight |
| Feed.ApplyLike | src/app/feed/page.tsx:494-508 | with a user and a write that lands, the (pitch, viewer) pair is present exactly when liked; with no user or a failed write the likes are unchanged; no other like changes |
| Feed.TapLike | src/app/feed/page.tsx:320-326 | a tap flips the local flag; when the write lands the flag and the like rows agree; with no user or a failed write the rows stay as they were |
| Feed.FailedLikeWriteDisagrees | src/app/feed/page.tsx:499-507 | after a failed write the flag shows the opposite of the like rows |
| Feed.TapLikeTwice | src/app/feed/page.tsx:322-326 | from agreeing flag and rows, two taps restore both exactly unless the first write landed and the second failed |
| Feed.FetchedLikeConsistent | src/app/feed/page.tsx:320 | a freshly fetched pitch starts with a flag that agrees with the like rows when the likes query succeeds |
| FeedbackBar.SendDisabled | src/app/feed/page.tsx:237 | the send button is disabled exactly when the text has no visible character, recording is on or a send is in flight |
| FeedbackBar.InputDisabled | src/app/feed/page.tsx:231 | the input is disabled while recording or sending, and whenever it is, the send button is disabled too |
| FeedbackBar.TypeText | src/app/feed/page.tsx:229-231 | typing replaces the buffer unless the input is disabled by recording or sending |
| FeedbackBar.SendTextAsWritten | src/app/feed/page.tsx:149-171 | blank text or a send in flight: nothing happens; with no signed-in user the bar stays marked as sending; with a user it does what the corrected handler does |
| FeedbackBar.Finish | src/app/feed/page.tsx:157-170 | the trimmed text is inserted as text feedback; success clears the buffer, failure keeps it; the in-flight mark clears |
| FeedbackBar.SendText | src/app/feed/page.tsx:149-171 | blank text or a send in flight: nothing happens; otherwise a row is written exactly when a user exists and the insert succeeds, the buffer clears exactly then, and the bar is never left sending |
| FeedbackBar.SentContentTrimmed | src/app/feed/page.tsx:161 | the written content is the typed text with an all-whitespace prefix and suffix cut off, non-empty and starting and ending with a visible character |
| FeedbackBar.ClickSend | src/app/feed/page.tsx:233-238 | a click on the disabled button does nothing; otherwise it runs the handler as written, which leaves a signed-out investor's bar sending and a signed-in one's idle |
| FeedbackBar.ClickSendCorrected | src/app/feed/page.tsx:233-238 | corrected: a click on the enabled button runs the corrected handler and always ends idle |
| FeedbackBar.ClicksAgreeWhenSignedIn | src/app/feed/page.tsx:150-155 | on an enabled button the click as written and the corrected click differ exactly when nobody is signed in |
| FeedbackBar.SendReturnsToIdle | src/app/feed/page.tsx:149-171 | with the corrected handler an idle bar is idle again after a send, whatever the services answer |
| FeedbackBar.BusyBarIsStuck | src/app/feed/page.tsx:150-155 | under the handler as written, no typing and no send changes a bar that is marked as sending |
| FeedbackBar.SignedOutSendDisablesForGood | src/app/feed/page.tsx:150-155 | a signed-out investor who sends "Great traction!" finds the send button disabled for good |
| Dashboard.AudioUrl | src/app/dashboard/page.tsx:129-135 | an entry gets an audio address exactly when it is audio with non-empty content, and the address is that of its path in the audio bucket |
| Dashboard.Enrich | src/app/dashboard/page.tsx:126-139 | the enrichment keeps the length and gives each entry its own audio address |
| Dashboard.EnrichThenItems | src/app/dashboard/page.tsx:126-139 | dropping the added addresses gives back the query result entry for entry, so the shown list keeps the query's newest-first order |
| Dashboard.InvestorLabel | src/app/dashboard/page.tsx:185 | the investor's first name, or the generic label when it is missing or empty |
| Dashboard.Assemble | src/app/dashboard/page.tsx:77-140 | no session: login; a failed pitch query shows the page of a founder without a pitch (no video, 0 views, no feedback); otherwise the video address exists exactly when the founder has a pitch with a non-empty video path; the view count is the returned count, else 0; no pitch or no feedback data means no feedback; otherwise the feedback is the query result; every shown entry carries its own audio address |
| Dashboard.UploadThenDashboard | src/app/dashboard/page.tsx:95-102 | after a successful upload the founder's dashboard shows the address of the object the upload stored |
| Dashboard.FeedMatchesDashboard | src/app/feed/page.tsx:448-451 | for a pitch with a stored video, the corrected feed address is the one its founder's dashboard shows; the address as written is a different one |

## Left out

- Backend services (auth, tables, storage): their answers are inputs and
  their state is plain values. `PublicUrl` (bucket, '/', path) stands in for
  the storage service's public-address function, whose format is not part
  of this model; the properties only rely on it keeping bucket and path
  apart.
- Audio feedback recording (microphone access, MediaRecorder, the audio
  upload and its exceptions thrown from a callback): browser device I/O.
  Only the `isRecording` flag the other controls read is modelled.
- Swiper, hotkeys, gestures, `video.play()`/`pause()` and the video player's
  mount effect. Only the active-index decision is modelled.
- The browser's duration probe is floating point; the duration is a `real`
  input. A probe that never finishes is `None`.
- `Date.now()` timestamps are opaque string inputs.
- Async interleavings are not modelled: a page arriving after a later
  remount, and React's state batching. Events are applied one at a time.
  The load-more request and its arrival are separate events, so the
  in-flight guard is still visible.
- Layout, styling, the progress percentage, the profile sheet's display
  fallbacks and static pages. The login page is left out: its only rule,
  startup to /dashboard and everyone else to /feed, is the one
  `Signup.Submit` states.
- Text.IsWhitespace: the ASCII whitespace set only. JavaScript's `trim()`
  and `\s` also strip Unicode spaces.
- Text.ToLower: ASCII case mapping only.
- Lengths are counted in characters, not UTF-16 code units.
- Signup.StepTwoValid: the `fundingStage !== ""` test is not modelled as a
  test. The funding stage is a datatype with no empty value, and the form
  starts at "no-fundraising", so the test always passes.
- Signup.GoalId: the model proves only that goal ids contain no space. The
  German goal captions do not slug to the English goal type's ids; the
  source casts without a check, and nothing reads the type back.
- Signup.Submit: the German text of the "user not created" error is not
  modelled, only that this error occurred; an auth error carries the
  service's message.
- The feed's `getPublicUrl(video_url!)` on a null `video_url`: the model
  gives no address instead of calling the service with null.
- Feed.FeedRunInv: the backend is one fixed value for the whole session.
  The page query's `.range(from, to)` has no `.order()`, so the database
  may return rows in another order from one page request to the next, and
  an upload during the session (a new pitch row) shifts later pages; either
  can repeat or skip pitches in the real feed. The invariant assumes a
  stable row order and no concurrent writes.
- The profile join in the feed is a lookup in a profile map. The query
  shape of the profile, details and goals is not modelled.
- The dashboard's view count and feedback come from queries whose filters
  (`pitch_id`, newest first) are taken as given. The model does not
  recompute them from tables.

## Findings

| source | as written | input that shows it | evidently intended | confidence | as-written member | corrected member |
|---|---|---|---|---|---|---|
| src/app/feed/page.tsx:150-155 | the text send marks a send in flight, then returns when no user is signed in without clearing the mark | text "Great traction!", no signed-in user: afterwards the input and the send button stay disabled for good | clear the in-flight mark on every path | high, not executed | FeedbackBar.SendTextAsWritten | FeedbackBar.SendText |
| src/app/feed/page.tsx:448-451 | the feed resolves video addresses in bucket "video-pitches" | any pitch the upload stored under bucket "pitches" (src/app/dashboard/VideoUpload.tsx:83-85): its feed address names a bucket the video is not in | resolve in "pitches", the bucket the upload writes and the dashboard reads (src/app/dashboard/page.tsx:98-100) | medium, not executed (a second bucket holding copies could exist outside this repository) | Feed.FetchPageAsWritten | Feed.FetchPage |

=== FILE: common.dfy ===
/** Shared vocabulary: an optional value, the public-address stand-in for the
    object store, and splitting a string at the first occurrence of a character. */
module Common {

  datatype Option<+T> = None | Some(value: T) {
    function GetOr(default: T): T {
      match this
      case Some(v) => v
      case None => default
    }
  }

  /** The storage service turns (bucket, object path) into a publicly fetchable
      address. Its real format is not visible here; this stand-in keeps the one
      thing the model relies on: different buckets give different addresses. */
  function PublicUrl(bucket: string, path: string): (url: string)
    ensures |url| == |bucket| + 1 + |path|
    ensures url[..|bucket|] == bucket && url[|bucket|] == '/' && url[|bucket| + 1..] == path
  {
    bucket + "/" + path
  }

  /** Splits `s` at the first occurrence of `c`, dropping that occurrence. */
  function SplitFirst(s: string, c: char): (r: Option<(string, string)>)
    ensures r.None? <==> c !in s
    ensures r.Some? ==> c !in r.value.0 && s == r.value.0 + [c] + r.value.1
  {
    if |s| == 0 then None
    else if s[0] == c then Some(([], s[1..]))
    else
      match SplitFirst(s[1..], c)
      case None => None
      case Some(p) => Some(([s[0]] + p.0, p.1))
  }

  /** Joining at a character that the left part does not contain can be undone
      by SplitFirst. */
  lemma {:induction false} SplitFirstJoin(a: string, c: char, b: string)
    requires c !in a
    ensures SplitFirst(a + [c] + b, c) == Some((a, b))
  {
    if |a| > 0 {
      assert (a + [c] + b)[1..] == a[1..] + [c] + b;
      SplitFirstJoin(a[1..], c, b);
      assert [a[0]] + a[1..] == a;
    } else {
      assert a + [c] + b == [c] + b;
    }
  }
}

=== FILE: dashboard.dfy ===
/** The founder dashboard's server-side assembly: the founder's single pitch,
    its public video address when a video is stored, the view count with its
    default, and the feedback list enriched with audio addresses. */
module Dashboard {
  import opened Common
  import opened PitchTable
  import opened FeedbackBar
  import VideoUpload
  import Feed

  /** The storage bucket audio feedback is stored in. */
  const AudioBucket: string := "feedback-audio"

  /** A feedback row joined with the investor's first name. */
  datatype FeedbackItem = FeedbackItem(id: int, kind: FeedbackKind, content: string, createdAt: int, investorName: Option<string>)

  datatype ShownFeedback = ShownFeedback(item: FeedbackItem, audioUrl: Option<string>)

  /** An audio entry with a stored path gets a playable address; everything
      else gets none. */
  function AudioUrl(item: FeedbackItem): (url: Option<string>)
    ensures url.Some? <==> item.kind == AudioFeedback && item.content != ""
    ensures url.Some? ==> url.value == PublicUrl(AudioBucket, item.content)
  {
    if item.kind == AudioFeedback && item.content != "" then Some(PublicUrl(AudioBucket, item.content)) else None
  }

  function Items(shown: seq<ShownFeedback>): (items: seq<FeedbackItem>)
    ensures |items| == |shown|
    ensures forall i :: 0 <= i < |shown| ==> items[i] == shown[i].item
  {
    seq(|shown|, i requires 0 <= i < |shown| => shown[i].item)
  }

  /** The `Promise.all(map(...))` enrichment: entry by entry, in order. */
  function Enrich(items: seq<FeedbackItem>): (shown: seq<ShownFeedback>)
    ensures |shown| == |items|
    ensures forall i :: 0 <= i < |items| ==> shown[i].audioUrl == AudioUrl(items[i])
  {
    seq(|items|, i requires 0 <= i < |items| => ShownFeedback(items[i], AudioUrl(items[i])))
  }

  /** Enrichment only adds: dropping the added addresses gives back the query
      result, entry for entry and so in the query's newest-first order. */
  lemma EnrichThenItems(items: seq<FeedbackItem>)
    ensures Items(Enrich(items)) == items
  {
  }

  /** "von <first name>", or a generic investor when the name is missing or empty. */
  function InvestorLabel(item: FeedbackItem): (name: string)
    ensures item.investorName.Some? && item.investorName.value != "" ==> name == item.investorName.value
    ensures item.investorName.None? || item.investorName.value == "" ==> name == "Einem Investor"
  {
    match item.investorName
    case Some(n) => if n != "" then n else "Einem Investor"
    case None => "Einem Investor"
  }

  /** What the page's queries return for the signed-in founder. The pitch
      query's error is never looked at: a failed query reads as "no pitch". */
  datatype DashboardReplies = DashboardReplies(
    session: Option<string>,
    pitchQueryFails: bool,
    viewCount: Option<nat>,
    feedback: Option<seq<FeedbackItem>>)

  datatype DashboardView =
    | ToLogin
    | View(publicVideoUrl: Option<string>, viewCount: nat, feedback: seq<ShownFeedback>)

  /** The pitch the page works with: the founder's row, unless the query failed. */
  function FoundPitch(pitches: seq<PitchRow>, r: DashboardReplies): Option<PitchRow>
    requires OneRowPerUser(pitches) && r.session.Some?
  {
    if r.pitchQueryFails then None else SingleRowFor(pitches, r.session.value)
  }

  /** `DashboardPage` up to rendering. */
  function Assemble(pitches: seq<PitchRow>, r: DashboardReplies): (v: DashboardView)
    requires OneRowPerUser(pitches)
    ensures v.ToLogin? <==> r.session.None?
    ensures v.View? && r.pitchQueryFails ==> v == View(None, 0, [])
    ensures v.View? && !r.pitchQueryFails ==> FoundPitch(pitches, r) == SingleRowFor(pitches, r.session.value)
    ensures v.View? ==>
      var pitch := FoundPitch(pitches, r);
      && (v.publicVideoUrl.Some? <==> pitch.Some? && pitch.value.videoUrl.Some? && pitch.value.videoUrl.value != "")
      && (v.publicVideoUrl.Some? ==> v.publicVideoUrl.value == PublicUrl(PitchBucket, pitch.value.videoUrl.value))
      && v.viewCount == (if pitch.Some? && r.viewCount.Some? then r.viewCount.value else 0)
      && (pitch.None? || r.feedback.None? ==> v.feedback == [])
      && (pitch.Some? && r.feedback.Some? ==> Items(v.feedback) == r.feedback.value)
      && (forall i :: 0 <= i < |v.feedback| ==> v.feedback[i].audioUrl == AudioUrl(v.feedback[i].item))
  {
    match r.session
    case None => ToLogin
    case Some(uid) =>
      match FoundPitch(pitches, r)
      case None => View(None, 0, [])
      case Some(pitch) =>
        var url := if pitch.videoUrl.Some? && pitch.videoUrl.value != ""
          then Some(PublicUrl(PitchBucket, pitch.videoUrl.value)) else None;
        var count := r.viewCount.GetOr(0);
        var shown := if r.feedback.Some? then Enrich(r.feedback.value) else [];
        EnrichThenItems(r.feedback.GetOr([]));
        View(url, count, shown)
  }

  /** Upload and dashboard agree: after a successful upload the founder's
      dashboard shows the address of the object the upload stored. */
  lemma UploadThenDashboard(u: VideoUpload.Uploader, s: VideoUpload.Store, ur: VideoUpload.Replies, dr: DashboardReplies)
    requires OneRowPerUser(s.pitches)
    requires VideoUpload.Upload(u, s, ur).refreshed
    requires dr.session == ur.user && !dr.pitchQueryFails
    ensures var res := VideoUpload.Upload(u, s, ur);
      var path := VideoUpload.StoragePath(ur.user.value, ur.timestamp, u.file.value.name);
      && (PitchBucket, path) in res.store.objects
      && Assemble(res.store.pitches, dr).View?
      && Assemble(res.store.pitches, dr).publicVideoUrl == Some(PublicUrl(PitchBucket, path))
  {
  }

  /** Feed and dashboard agree on a founder's video only with the corrected
      fetch: the address the feed shows for a pitch is the one its founder's
      dashboard shows, while the fetch as written shows another. */
  lemma {:induction false} FeedMatchesDashboard(b: Feed.Backend, r: Feed.Replies, p: nat, i: nat, dr: DashboardReplies)
    requires OneRowPerUser(b.pitches)
    requires i < |Feed.FetchPage(b, r, p).data|
    requires var row := Feed.FetchPage(b, r, p).data[i].row;
      row.videoUrl.Some? && row.videoUrl.value != "" && dr.session == Some(row.userId)
    requires !dr.pitchQueryFails
    ensures Assemble(b.pitches, dr).View?
    ensures Assemble(b.pitches, dr).publicVideoUrl == Feed.FetchPage(b, r, p).data[i].publicVideoUrl
    ensures i < |Feed.FetchPageAsWritten(b, r, p).data|
    ensures Assemble(b.pitches, dr).publicVideoUrl != Feed.FetchPageAsWritten(b, r, p).data[i].publicVideoUrl
  {
    var pg := Feed.FetchPage(b, r, p);
    var pw := Feed.FetchPageAsWritten(b, r, p);
    var row := pg.data[i].row;
    var k := Feed.RangeFrom(p) + i;
    assert Feed.Rows(pg.data)[i] == row;
    assert row == b.pitches[k];
    assert Feed.Rows(pw.data) == Feed.Rows(pg.data);
    assert Feed.Rows(pw.data)[i] == pw.data[i].row;
    var found := SingleRowFor(b.pitches, row.userId);
    assert b.pitches[k].userId == row.userId;
    var j :| 0 <= j < |b.pitches| && b.pitches[j] == found.value;
    assert j == k;
  }
}

=== FILE: feed.dfy ===
/** The investor feed: page fetching with the liked-flag join, the
    load / load-more state machine with its in-flight guard, the slide-change
    rule (which slide plays, when to load more) and the like toggle. The
    backend is a fixed pitch sequence, a profile map and a like set. */
module Feed {
  import opened Common
  import opened PitchTable

  const PageSize: nat := 5

  /** The bucket the feed page resolves video addresses in, as written. */
  const FeedVideoBucketAsWritten: string := "video-pitches"

  datatype StartupDetails = StartupDetails(
    startupName: Option<string>,
    website: Option<string>,
    fundingStage: Option<string>,
    description: Option<string>)

  /** The founder snapshot joined onto a pitch through its `user_id`. */
  datatype Profile = Profile(firstName: Option<string>, startupDetails: seq<StartupDetails>, goals: seq<string>)

  /** Likes are (pitch id, investor id) pairs. */
  datatype Backend = Backend(pitches: seq<PitchRow>, profiles: map<string, Profile>, likes: set<(string, string)>)

  datatype FeedPitch = FeedPitch(row: PitchRow, profile: Option<Profile>, publicVideoUrl: Option<string>, isLiked: bool)

  /** What the services answer during one page fetch. */
  datatype Replies = Replies(viewer: Option<string>, pitchQueryFails: bool, likesQueryFails: bool)

  datatype Page = Page(data: seq<FeedPitch>, hasMore: bool, toLogin: bool)

  // ---------------------------------------------------------------------
  // Fetching one page

  /** `from`: the first position of page `p`, a multiple of the page size. */
  function RangeFrom(p: nat): (n: nat)
    ensures n % PageSize == 0 && n / PageSize == p
  {
    p * PageSize
  }

  /** `to`: the last position of page `p` (inclusive); pages are `PageSize`
      long and follow each other without gap or overlap. */
  function RangeTo(p: nat): (t: int)
    ensures t - RangeFrom(p) + 1 == PageSize
    ensures t + 1 == RangeFrom(p + 1)
  {
    RangeFrom(p) + PageSize - 1
  }

  /** `.range(from, to)`: the rows at positions from..to inclusive that exist. */
  function RangeRows(t: seq<PitchRow>, from: nat, to: int): (rows: seq<PitchRow>)
    requires from <= to + 1
    ensures |rows| == (if to + 1 <= |t| then to + 1 - from else if from <= |t| then |t| - from else 0)
    ensures forall i :: 0 <= i < |rows| ==> rows[i] == t[from + i]
  {
    if |t| < from then []
    else if to + 1 <= |t| then t[from..to + 1]
    else t[from..]
  }

  function Rows(ps: seq<FeedPitch>): (rows: seq<PitchRow>)
    ensures |rows| == |ps|
    ensures forall i :: 0 <= i < |ps| ==> rows[i] == ps[i].row
  {
    seq(|ps|, i requires 0 <= i < |ps| => ps[i].row)
  }

  /** Ids of the page's pitches the viewer has liked (one batched query). */
  function LikedIds(likes: set<(string, string)>, viewer: string, ids: set<string>): (liked: set<string>)
    ensures forall id :: id in liked <==> id in ids && (id, viewer) in likes
  {
    set l | l in likes && l.1 == viewer && l.0 in ids :: l.0
  }

  function VideoAddress(bucket: string, row: PitchRow): Option<string> {
    match row.videoUrl
    case None => None
    case Some(path) => Some(PublicUrl(bucket, path))
  }

  function ProfileOf(profiles: map<string, Profile>, userId: string): Option<Profile> {
    if userId in profiles then Some(profiles[userId]) else None
  }

  function Decorate(rows: seq<PitchRow>, b: Backend, liked: set<string>, bucket: string): (ps: seq<FeedPitch>)
    ensures Rows(ps) == rows
    ensures forall i :: 0 <= i < |ps| ==> ps[i].isLiked == (rows[i].id in liked)
    ensures forall i :: 0 <= i < |ps| ==> ps[i].profile == ProfileOf(b.profiles, rows[i].userId)
  {
    seq(|rows|, i requires 0 <= i < |rows| =>
      FeedPitch(rows[i], ProfileOf(b.profiles, rows[i].userId), VideoAddress(bucket, rows[i]), rows[i].id in liked))
  }

  /** `fetchPitches(p)` with addresses resolved in `bucket`. */
  function FetchPageIn(bucket: string, b: Backend, r: Replies, p: nat): (pg: Page)
    ensures r.viewer.None? ==> pg == Page([], false, true)
    ensures r.viewer.Some? && r.pitchQueryFails ==> pg == Page([], false, false)
    ensures r.viewer.Some? && !r.pitchQueryFails ==>
      !pg.toLogin && Rows(pg.data) == RangeRows(b.pitches, RangeFrom(p), RangeTo(p))
    ensures |pg.data| <= PageSize
    ensures pg.hasMore <==> |pg.data| == PageSize
    ensures forall i :: 0 <= i < |pg.data| ==>
      (pg.data[i].isLiked <==> !r.likesQueryFails && (pg.data[i].row.id, r.viewer.value) in b.likes)
    ensures forall i :: 0 <= i < |pg.data| ==> pg.data[i].publicVideoUrl == VideoAddress(bucket, pg.data[i].row)
    ensures forall i :: 0 <= i < |pg.data| ==> pg.data[i].profile == ProfileOf(b.profiles, pg.data[i].row.userId)
  {
    match r.viewer
    case None => Page([], false, true)
    case Some(viewer) =>
      if r.pitchQueryFails then Page([], false, false)
      else
        var rows := RangeRows(b.pitches, RangeFrom(p), RangeTo(p));
        var ids := set i | 0 <= i < |rows| :: rows[i].id;
        var liked := if r.likesQueryFails then {} else LikedIds(b.likes, viewer, ids);
        var data := Decorate(rows, b, liked, bucket);
        assert forall i :: 0 <= i < |rows| ==> rows[i].id in ids;
        Page(data, |data| == PageSize, false)
  }

  /** The page fetch the rest of the model uses: addresses resolved in the
      bucket the upload writes to (see FetchPageAsWritten). */
  function FetchPage(b: Backend, r: Replies, p: nat): (pg: Page)
    ensures forall i :: 0 <= i < |pg.data| && pg.data[i].row.videoUrl.Some? ==>
      pg.data[i].publicVideoUrl == Some(PublicUrl(PitchBucket, pg.data[i].row.videoUrl.value))
  {
    FetchPageIn(PitchBucket, b, r, p)
  }

  /** The page fetch exactly as written, resolving in "video-pitches": no
      stored video gets the address of the object the upload wrote. */
  function FetchPageAsWritten(b: Backend, r: Replies, p: nat): (pg: Page)
    ensures forall i :: 0 <= i < |pg.data| && pg.data[i].row.videoUrl.Some? ==>
      pg.data[i].publicVideoUrl != Some(PublicUrl(PitchBucket, pg.data[i].row.videoUrl.value))
  {
    BucketsDiffer();
    FetchPageIn(FeedVideoBucketAsWritten, b, r, p)
  }

  /** The two buckets give different addresses for every path. */
  lemma BucketsDiffer()
    ensures forall path :: PublicUrl(FeedVideoBucketAsWritten, path) != PublicUrl(PitchBucket, path)
  {
  }

  /** An uploaded video (stored under `PitchBucket`) gets, as written, an
      address in another bucket than the one it was stored in, so the feed
      points at an object that the upload never wrote; the corrected fetch
      points at the stored object. */
  lemma FeedBucketMismatch(b: Backend, r: Replies, p: nat, i: nat)
    requires r.viewer.Some? && !r.pitchQueryFails
    requires i < |FetchPage(b, r, p).data|
    requires FetchPage(b, r, p).data[i].row.videoUrl.Some?
    ensures var path := FetchPage(b, r, p).data[i].row.videoUrl.value;
      && FetchPageAsWritten(b, r, p).data[i].publicVideoUrl != Some(PublicUrl(PitchBucket, path))
      && FetchPage(b, r, p).data[i].publicVideoUrl == Some(PublicUrl(PitchBucket, path))
  {
  }

  // ---------------------------------------------------------------------
  // Load and load-more

  /** The page's state; `toLogin` records that a fetch found no session and
      sent the browser to the login page. */
  datatype FeedState = FeedState(pitches: seq<FeedPitch>, page: nat, hasMore: bool, loading: bool, loadingMore: bool, toLogin: bool)

  const InitialFeed: FeedState := FeedState([], 0, true, true, false, false)

  /** The mount effect: page 0 replaces the list and the next page is 1. */
  function Mount(s: FeedState, b: Backend, r: Replies): (s': FeedState)
    ensures s'.pitches == FetchPageAsWritten(b, r, 0).data && s'.page == 1 && !s'.loading
    ensures s'.hasMore == FetchPageAsWritten(b, r, 0).hasMore && s'.loadingMore == s.loadingMore
    ensures s'.toLogin <==> r.viewer.None?
  {
    var pg := FetchPageAsWritten(b, r, 0);
    s.(pitches := pg.data, hasMore := pg.hasMore, page := 1, loading := false, toLogin := pg.toLogin)
  }

  /** `loadMorePitches` up to its request: refused while a request is in
      flight or when no more pages exist; otherwise marks one in flight. */
  function BeginLoadMore(s: FeedState): (res: (FeedState, Option<nat>))
    ensures s.loadingMore || !s.hasMore ==> res == (s, None)
    ensures !s.loadingMore && s.hasMore ==> res == (s.(loadingMore := true), Some(s.page))
  {
    if s.loadingMore || !s.hasMore then (s, None) else (s.(loadingMore := true), Some(s.page))
  }

  /** The rest of `loadMorePitches`: appends the page, advances the cursor and
      clears the in-flight flag. */
  function FinishLoadMore(s: FeedState, pg: Page): (s': FeedState)
    ensures s'.pitches == s.pitches + pg.data && s'.page == s.page + 1
    ensures s'.hasMore == pg.hasMore && !s'.loadingMore && s'.loading == s.loading
    ensures s'.toLogin <==> s.toLogin || pg.toLogin
  {
    s.(pitches := s.pitches + pg.data, hasMore := pg.hasMore, page := s.page + 1,
       loadingMore := false, toLogin := s.toLogin || pg.toLogin)
  }

  /** A load-more without a session sends the browser to the login page and
      ends paging; nothing is appended. */
  lemma SessionlessLoadMore(s: FeedState, b: Backend, r: Replies)
    requires r.viewer.None?
    ensures var s' := FinishLoadMore(s, FetchPageAsWritten(b, r, s.page));
      s'.toLogin && !s'.hasMore && s'.pitches == s.pitches
  {
  }

  /** While a page is in flight, another request is refused. */
  lemma LoadMoreNotReentrant(s: FeedState)
    requires BeginLoadMore(s).1.Some?
    ensures BeginLoadMore(BeginLoadMore(s).0) == (BeginLoadMore(s).0, None)
  {
  }

  /** What the feed state says about a fixed backend: the loaded rows are the
      backend's first rows, at most a page per cursor step, and while more may
      exist exactly a full page per cursor step. */
  ghost predicate FeedInv(s: FeedState, b: Backend) {
    && |s.pitches| <= |b.pitches|
    && Rows(s.pitches) == b.pitches[..|s.pitches|]
    && |s.pitches| <= PageSize * s.page
    && (s.hasMore ==> |s.pitches| == PageSize * s.page)
    && (s.loadingMore ==> s.hasMore)
  }

  lemma InitialFeedInv(b: Backend)
    ensures FeedInv(InitialFeed, b)
  {
  }

  lemma {:induction false} MountInv(s: FeedState, b: Backend, r: Replies)
    requires !s.loadingMore
    ensures FeedInv(Mount(s, b, r), b)
  {
  }

  /** Appending the page at the cursor keeps the invariant. */
  lemma {:induction false} FinishLoadMoreInv(s: FeedState, b: Backend, r: Replies)
    requires FeedInv(s, b) && s.loadingMore
    ensures FeedInv(FinishLoadMore(s, FetchPageAsWritten(b, r, s.page)), b)
  {
  }

  // ---------------------------------------------------------------------
  // Slide changes

  datatype Playback = Play | Pause | NoVideo

  /** One slide per pitch plus the trailing loader slide while more may exist. */
  function SlideCount(s: FeedState): (n: nat)
    ensures |s.pitches| <= n <= |s.pitches| + 1
    ensures n > |s.pitches| <==> s.hasMore
  {
    |s.pitches| + (if s.hasMore then 1 else 0)
  }

  /** What each slide's video is told: the active one plays, every other
      pitch's video pauses, the loader slide has none. */
  function SlideCommands(s: FeedState, active: int): (cmds: seq<Playback>)
    ensures |cmds| == SlideCount(s)
    ensures forall i :: 0 <= i < |cmds| ==> (cmds[i] == Play <==> i == active && i < |s.pitches|)
    ensures forall i :: 0 <= i < |cmds| ==> (cmds[i] == NoVideo <==> i >= |s.pitches|)
  {
    seq(SlideCount(s), i requires 0 <= i < SlideCount(s) =>
      if i >= |s.pitches| then NoVideo else if i == active then Play else Pause)
  }

  function CountPlay(cmds: seq<Playback>): nat {
    if |cmds| == 0 then 0 else CountPlay(cmds[..|cmds| - 1]) + (if cmds[|cmds| - 1] == Play then 1 else 0)
  }

  lemma {:induction false} CountPlayAt(cmds: seq<Playback>, k: int)
    requires forall i :: 0 <= i < |cmds| ==> (cmds[i] == Play <==> i == k)
    ensures CountPlay(cmds) == (if 0 <= k < |cmds| then 1 else 0)
  {
    if |cmds| > 0 {
      var init := cmds[..|cmds| - 1];
      assert forall i :: 0 <= i < |init| ==> init[i] == cmds[i];
      CountPlayAt(init, k);
    }
  }

  /** Exactly one video plays when the active slide shows a pitch, none when
      it is the loader slide. */
  lemma OnlyActivePlays(s: FeedState, active: int)
    ensures CountPlay(SlideCommands(s, active)) == (if 0 <= active < |s.pitches| then 1 else 0)
  {
    var cmds := SlideCommands(s, active);
    var k := if 0 <= active < |s.pitches| then active else -1;
    CountPlayAt(cmds, k);
  }

  /** The vertical swiper's slide-change handler: asks for more near the end
      of the list (the request itself is still guarded) and sets playback. */
  function OnSlideChange(s: FeedState, active: int): (res: (FeedState, Option<nat>, seq<Playback>))
    ensures res.2 == SlideCommands(s, active)
    ensures res.1.Some? <==> active >= |s.pitches| - 2 && s.hasMore && !s.loadingMore
    ensures res.1.Some? ==> res.0 == s.(loadingMore := true) && res.1.value == s.page
    ensures res.1.None? ==> res.0 == s
  {
    var (s', request) := if active >= |s.pitches| - 2 && s.hasMore then BeginLoadMore(s) else (s, None);
    (s', request, SlideCommands(s, active))
  }

  /** Things that happen to the feed after mounting. */
  datatype FeedEvent = SlideTo(active: int) | PageArrives(replies: Replies)

  /** A page can only arrive for a request in flight. */
  predicate CanHappen(s: FeedState, e: FeedEvent) {
    e.PageArrives? ==> s.loadingMore
  }

  function StepFeed(s: FeedState, b: Backend, e: FeedEvent): FeedState
    requires CanHappen(s, e)
  {
    match e
    case SlideTo(active) => OnSlideChange(s, active).0
    case PageArrives(r) => FinishLoadMore(s, FetchPageAsWritten(b, r, s.page))
  }

  /** Any run of slide changes and arriving pages, each replying however the
      services like, keeps the loaded pitches a prefix of the backend and
      the cursor in step with them. */
  lemma {:induction false} FeedRunInv(s: FeedState, b: Backend, evs: seq<FeedEvent>)
    requires FeedInv(s, b)
    ensures RunFeed(s, b, evs).Some? ==> FeedInv(RunFeed(s, b, evs).value, b)
    decreases |evs|
  {
    if |evs| > 0 && CanHappen(s, evs[0]) {
      var e := evs[0];
      if e.PageArrives? {
        FinishLoadMoreInv(s, b, e.replies);
      }
      FeedRunInv(StepFeed(s, b, e), b, evs[1..]);
    }
  }

  /** Runs events in order; None when one of them could not have happened. */
  function RunFeed(s: FeedState, b: Backend, evs: seq<FeedEvent>): Option<FeedState>
    decreases |evs|
  {
    if |evs| == 0 then Some(s)
    else if !CanHappen(s, evs[0]) then None
    else RunFeed(StepFeed(s, b, evs[0]), b, evs[1..])
  }

  // ---------------------------------------------------------------------
  // Likes

  /** `handleLikeToggle`: inserts the (pitch, viewer) like or deletes it. With
      no signed-in user nothing is written; a write whose reply carries an
      error changes nothing either, and the error is not looked at. */
  function ApplyLike(likes: set<(string, string)>, pitchId: string, user: Option<string>, liked: bool, writeFails: bool): (likes': set<(string, string)>)
    ensures user.None? || writeFails ==> likes' == likes
    ensures user.Some? && !writeFails ==> ((pitchId, user.value) in likes' <==> liked)
    ensures forall l :: l != (pitchId, user.GetOr("")) ==> (l in likes' <==> l in likes)
  {
    match user
    case None => likes
    case Some(u) =>
      if writeFails then likes
      else if liked then likes + {(pitchId, u)} else likes - {(pitchId, u)}
  }

  /** The player's optimistic liked flag together with the like rows. */
  datatype LikeView = LikeView(isLiked: bool, likes: set<(string, string)>)

  predicate LikeConsistent(v: LikeView, pitchId: string, user: string) {
    v.isLiked <==> (pitchId, user) in v.likes
  }

  /** A tap (or double click) flips the flag first and then forwards the new
      value; the flag and the rows agree afterwards when the write lands. */
  function TapLike(v: LikeView, pitchId: string, user: Option<string>, writeFails: bool): (v': LikeView)
    ensures v'.isLiked == !v.isLiked
    ensures user.Some? && !writeFails ==> LikeConsistent(v', pitchId, user.value)
    ensures user.None? || writeFails ==> v'.likes == v.likes
  {
    var flipped := !v.isLiked;
    LikeView(flipped, ApplyLike(v.likes, pitchId, user, flipped, writeFails))
  }

  /** A failed write leaves the flag showing the opposite of the rows: the
      flag was flipped before the write and is never flipped back. */
  lemma FailedLikeWriteDisagrees(v: LikeView, pitchId: string, user: string)
    requires LikeConsistent(v, pitchId, user)
    ensures !LikeConsistent(TapLike(v, pitchId, Some(user), true), pitchId, user)
  {
  }

  /** Two taps restore both the flag and the like rows, provided the flag
      agreed with the rows to begin with, exactly unless the first write
      landed and the second failed. */
  lemma TapLikeTwice(v: LikeView, pitchId: string, user: Option<string>, fails1: bool, fails2: bool)
    requires user.Some? ==> LikeConsistent(v, pitchId, user.value)
    ensures TapLike(TapLike(v, pitchId, user, fails1), pitchId, user, fails2) == v
      <==> user.None? || fails1 || !fails2
  {
    if user.Some? && !fails1 && fails2 {
      var v2 := TapLike(TapLike(v, pitchId, user, fails1), pitchId, user, fails2);
      assert (pitchId, user.value) in v2.likes <==> !v.isLiked;
    }
  }

  /** A freshly fetched pitch starts with a flag that agrees with the rows. */
  lemma FetchedLikeConsistent(b: Backend, r: Replies, p: nat, i: nat)
    requires r.viewer.Some? && !r.likesQueryFails
    requires i < |FetchPageAsWritten(b, r, p).data|
    ensures var fp := FetchPageAsWritten(b, r, p).data[i];
      LikeConsistent(LikeView(fp.isLiked, b.likes), fp.row.id, r.viewer.value)
  {
  }
}

=== FILE: feedback_bar.dfy ===
/** The feedback bar under each pitch video: the text buffer, the send
    button's enable rule and the text send handler with its buffer
    behaviour. Recording audio is represented only by the `isRecording`
    flag the other controls look at. */
module FeedbackBar {
  import opened Common
  import opened Text

  datatype Bar = Bar(text: string, isRecording: bool, isSending: bool)

  const InitialBar: Bar := Bar("", false, false)

  datatype FeedbackKind = TextFeedback | AudioFeedback

  /** A row of the `feedback` table as the bar writes it. */
  datatype FeedbackRecord = FeedbackRecord(pitchId: string, investorId: string, kind: FeedbackKind, content: string)

  /** The text input is disabled while recording or sending; whenever it is,
      the send button is disabled too. */
  predicate InputDisabled(b: Bar)
    ensures InputDisabled(b) ==> SendDisabled(b)
  {
    b.isRecording || b.isSending
  }

  /** The send button is disabled while the text is blank, while recording
      and while a send is in flight. */
  predicate SendDisabled(b: Bar)
    ensures SendDisabled(b) <==> !HasVisible(b.text) || b.isRecording || b.isSending
  {
    IsBlank(b.text) || b.isRecording || b.isSending
  }

  /** Typing into the input; a disabled input ignores it. */
  function TypeText(b: Bar, t: string): (b': Bar)
    ensures InputDisabled(b) ==> b' == b
    ensures !InputDisabled(b) ==> b'.text == t
    ensures b'.isRecording == b.isRecording && b'.isSending == b.isSending
  {
    if InputDisabled(b) then b else b.(text := t)
  }

  /** Replies of the services one send calls. */
  datatype SendReplies = SendReplies(user: Option<string>, insertFails: bool)

  datatype SendResult = SendResult(bar: Bar, written: Option<FeedbackRecord>)

  /** `handleSendText` as written: with no signed-in user it returns after
      marking a send in flight, and never clears the mark. */
  function SendTextAsWritten(b: Bar, pitchId: string, r: SendReplies): (res: SendResult)
    ensures IsBlank(b.text) || b.isSending ==> res == SendResult(b, None)
    ensures !IsBlank(b.text) && !b.isSending && r.user.None? ==> res == SendResult(b.(isSending := true), None)
    ensures !IsBlank(b.text) && !b.isSending && r.user.Some? ==> res == SendText(b, pitchId, r)
  {
    if IsBlank(b.text) || b.isSending then SendResult(b, None)
    else
      var sending := b.(isSending := true);
      match r.user
      case None => SendResult(sending, None)
      case Some(u) => Finish(sending, pitchId, u, r.insertFails)
  }

  /** The insert and what follows it: the trimmed text is written as text
      feedback; success clears the buffer, failure keeps it. */
  function Finish(b: Bar, pitchId: string, user: string, insertFails: bool): (res: SendResult)
    ensures !res.bar.isSending && res.bar.isRecording == b.isRecording
    ensures insertFails ==> res == SendResult(b.(isSending := false), None)
    ensures !insertFails ==>
      res == SendResult(b.(isSending := false, text := ""), Some(FeedbackRecord(pitchId, user, TextFeedback, Trim(b.text))))
  {
    var done := b.(isSending := false);
    if insertFails then SendResult(done, None)
    else SendResult(done.(text := ""), Some(FeedbackRecord(pitchId, user, TextFeedback, Trim(b.text))))
  }

  /** `handleSendText` with the in-flight mark cleared on every path. */
  function SendText(b: Bar, pitchId: string, r: SendReplies): (res: SendResult)
    ensures IsBlank(b.text) || b.isSending ==> res == SendResult(b, None)
    ensures !IsBlank(b.text) && !b.isSending ==>
      && !res.bar.isSending
      && res.bar.isRecording == b.isRecording
      && (res.written.Some? <==> r.user.Some? && !r.insertFails)
      && (res.written.Some? ==>
            && res.written.value == FeedbackRecord(pitchId, r.user.value, TextFeedback, Trim(b.text))
            && res.bar.text == "")
      && (res.written.None? ==> res.bar.text == b.text)
  {
    if IsBlank(b.text) || b.isSending then SendResult(b, None)
    else
      match r.user
      case None => SendResult(b, None)
      case Some(u) => Finish(b.(isSending := true), pitchId, u, r.insertFails)
  }

  /** What a send writes is the typed text without its surrounding
      whitespace, and never empty. */
  lemma SentContentTrimmed(b: Bar, pitchId: string, r: SendReplies)
    requires SendText(b, pitchId, r).written.Some?
    ensures var c := SendText(b, pitchId, r).written.value.content;
      && c != [] && !IsWhitespace(c[0]) && !IsWhitespace(c[|c| - 1])
      && exists i, j :: 0 <= i <= j <= |b.text| && c == b.text[i..j]
           && AllWhitespace(b.text[..i]) && AllWhitespace(b.text[j..])
  {
  }

  /** Clicking the send button: a disabled button does nothing, an enabled
      one runs the handler as written. */
  function ClickSend(b: Bar, pitchId: string, r: SendReplies): (res: SendResult)
    ensures SendDisabled(b) ==> res == SendResult(b, None)
    ensures !SendDisabled(b) ==> res == SendTextAsWritten(b, pitchId, r)
    ensures !SendDisabled(b) && r.user.None? ==> res.bar.isSending && res.written.None?
    ensures !SendDisabled(b) && r.user.Some? ==> !res.bar.isSending
  {
    if SendDisabled(b) then SendResult(b, None) else SendTextAsWritten(b, pitchId, r)
  }

  /** The click with the corrected handler: an enabled button always leaves
      the bar idle. */
  function ClickSendCorrected(b: Bar, pitchId: string, r: SendReplies): (res: SendResult)
    ensures SendDisabled(b) ==> res == SendResult(b, None)
    ensures !SendDisabled(b) ==> res == SendText(b, pitchId, r) && !res.bar.isSending
  {
    if SendDisabled(b) then SendResult(b, None) else SendText(b, pitchId, r)
  }

  /** On an enabled button the two clicks differ exactly for a signed-out
      investor. */
  lemma ClicksAgreeWhenSignedIn(b: Bar, pitchId: string, r: SendReplies)
    requires !SendDisabled(b)
    ensures r.user.Some? <==> ClickSend(b, pitchId, r) == ClickSendCorrected(b, pitchId, r)
  {
  }

  /** With the corrected handler a send never leaves the bar busy: a bar
      that was idle is idle again afterwards, whatever the services answer. */
  lemma SendReturnsToIdle(b: Bar, pitchId: string, r: SendReplies)
    requires !b.isSending
    ensures !SendText(b, pitchId, r).bar.isSending
  {
  }

  /** What the investor can do to the bar (the microphone button is disabled
      while sending, so it is not among the actions of a busy bar). */
  datatype BarAction = Type(text: string) | Send(replies: SendReplies)

  function RunAsWritten(b: Bar, pitchId: string, acts: seq<BarAction>): Bar
    decreases |acts|
  {
    if |acts| == 0 then b
    else
      var b' := match acts[0]
        case Type(t) => TypeText(b, t)
        case Send(r) => SendTextAsWritten(b, pitchId, r).bar;
      RunAsWritten(b', pitchId, acts[1..])
  }

  /** Once busy under the as-written handler, the bar stays exactly as it is:
      no typing and no send changes it again. */
  lemma {:induction false} BusyBarIsStuck(b: Bar, pitchId: string, acts: seq<BarAction>)
    requires b.isSending
    ensures RunAsWritten(b, pitchId, acts) == b
    decreases |acts|
  {
    if |acts| > 0 {
      BusyBarIsStuck(b, pitchId, acts[1..]);
    }
  }

  /** A concrete case: a signed-out investor types feedback and presses send;
      afterwards the send button is disabled for good. */
  lemma {:induction false} SignedOutSendDisablesForGood(pitchId: string, acts: seq<BarAction>)
    ensures var b := Bar("Great traction!", false, false);
      && !SendDisabled(b)
      && var after := SendTextAsWritten(b, pitchId, SendReplies(None, false)).bar;
      && SendDisabled(RunAsWritten(after, pitchId, acts))
  {
    var b := Bar("Great traction!", false, false);
    assert !IsWhitespace(b.text[0]);
    var after := SendTextAsWritten(b, pitchId, SendReplies(None, false)).bar;
    BusyBarIsStuck(after, pitchId, acts);
  }
}

=== FILE: pitches.dfy ===
/** The `pitches` table as the application sees it: one row per founder,
    written by an upsert keyed on `user_id` and read back with a
    single-row query. */
module PitchTable {
  import opened Common

  /** The storage bucket the upload writes pitch videos into. */
  const PitchBucket: string := "pitches"

  datatype PitchRow = PitchRow(id: string, videoUrl: Option<string>, userId: string)

  /** No founder owns two rows. */
  predicate OneRowPerUser(t: seq<PitchRow>) {
    forall i, j :: 0 <= i < j < |t| ==> t[i].userId != t[j].userId
  }

  predicate HasRowFor(t: seq<PitchRow>, userId: string) {
    exists i :: 0 <= i < |t| && t[i].userId == userId
  }

  /** Position of the founder's row, or -1 when there is none. */
  function RowIndex(t: seq<PitchRow>, userId: string): (r: int)
    ensures r == -1 <==> !HasRowFor(t, userId)
    ensures r != -1 ==> 0 <= r < |t| && t[r].userId == userId
    ensures r != -1 ==> forall i :: 0 <= i < r ==> t[i].userId != userId
    decreases |t|
  {
    if |t| == 0 then -1
    else if t[0].userId == userId then 0
    else
      var r := RowIndex(t[1..], userId);
      if r == -1 then
        assert forall i :: 1 <= i < |t| ==> t[i] == t[1..][i - 1];
        -1
      else r + 1
  }

  /** `upsert({user_id, video_url}, {onConflict: "user_id"})`: replaces the
      video of the founder's row, or appends a new row with a fresh id. */
  function Upsert(t: seq<PitchRow>, userId: string, videoUrl: string, freshId: string): (t': seq<PitchRow>)
    requires OneRowPerUser(t)
    ensures OneRowPerUser(t')
    ensures HasRowFor(t', userId)
    ensures forall i :: 0 <= i < |t'| && t'[i].userId == userId ==> t'[i].videoUrl == Some(videoUrl)
    ensures HasRowFor(t, userId) ==>
      && |t'| == |t|
      && (forall i :: 0 <= i < |t| ==>
            t'[i] == (if t[i].userId == userId then t[i].(videoUrl := Some(videoUrl)) else t[i]))
    ensures !HasRowFor(t, userId) ==> t' == t + [PitchRow(freshId, Some(videoUrl), userId)]
  {
    var i := RowIndex(t, userId);
    if i == -1 then
      var t' := t + [PitchRow(freshId, Some(videoUrl), userId)];
      assert t'[|t|].userId == userId;
      t'
    else
      var t' := t[i := t[i].(videoUrl := Some(videoUrl))];
      assert t'[i].userId == userId;
      t'
  }

  /** `.eq("user_id", u).single()`: the row when there is exactly one. */
  function SingleRowFor(t: seq<PitchRow>, userId: string): (r: Option<PitchRow>)
    requires OneRowPerUser(t)
    ensures r.None? <==> !HasRowFor(t, userId)
    ensures r.Some? ==> r.value in t && r.value.userId == userId
  {
    var i := RowIndex(t, userId);
    if i == -1 then None else Some(t[i])
  }

  /** After an upsert the single-row query finds the founder's row with the
      new video. */
  lemma UpsertThenSingle(t: seq<PitchRow>, userId: string, videoUrl: string, freshId: string)
    requires OneRowPerUser(t)
    ensures var t' := Upsert(t, userId, videoUrl, freshId);
      SingleRowFor(t', userId).Some? && SingleRowFor(t', userId).value.videoUrl == Some(videoUrl)
  {
  }
}

=== FILE: signup.dfy ===
/** The four-step signup wizard: an immutable draft, the per-step validity
    predicate, gated forward and ungated backward navigation, the segmented
    progress bar, the funding-stage slider, the multi-select toggles and the
    write plan of the final submission. */
module Signup {
  import opened Common
  import opened Text

  datatype Role = Unchosen | Startup | AngelInvestor | Vc | OtherRole

  datatype FundingStage = NoFundraising | FamilyFriends | PreSeed | Seed | SeriesA

  const TotalSteps: int := 4

  /** Slider order of the funding stages; the slider runs over 0..4. */
  const FundingStageOptions: seq<FundingStage> := [NoFundraising, FamilyFriends, PreSeed, Seed, SeriesA]

  function FundingStageId(f: FundingStage): string {
    match f
    case NoFundraising => "no-fundraising"
    case FamilyFriends => "family-friends"
    case PreSeed => "pre-seed"
    case Seed => "seed"
    case SeriesA => "series-a"
  }

  /** Labels of the ticket-size slider, which runs over 0..5. */
  const TicketSizeLabels: seq<string> :=
    ["bis 25.000€", "bis 50.000€", "bis 100.000€", "bis 150.000€", "bis 250.000€", "mehr"]

  const InvestmentStageIds: seq<string> := ["family-friends", "pre-seed", "seed", "series-a"]

  /** Checkbox captions of the investment stages, in display order. */
  const StageCaptions: seq<string> := ["Family & Friends", "Pre-Seed", "Seed", "Series A"]

  /** Checkbox captions of the startup goals, in display order. */
  const GoalCaptions: seq<string> := [
    "Das Fundraising deutlich beschleunigen",
    "Neue Investoren finden",
    "Bessere Angels finden",
    "Feedback & Netzwerk aufbauen"
  ]

  datatype Draft = Draft(
    role: Role,
    startupName: string,
    website: string,
    fundingStage: FundingStage,
    goals: seq<string>,
    industries: seq<string>,
    stages: seq<string>,
    ticketSize: int,
    firstName: string,
    lastName: string,
    linkedIn: string,
    email: string,
    phoneNumber: string,
    password: string,
    confirmPassword: string)

  const InitialDraft: Draft :=
    Draft(Unchosen, "", "", NoFundraising, [], [], [], 2, "", "", "", "", "", "", "")

  /** The ticket-size index always addresses a label. */
  predicate DraftOk(d: Draft) {
    0 <= d.ticketSize < |TicketSizeLabels|
  }

  datatype Wizard = Wizard(step: int, draft: Draft)

  const InitialWizard: Wizard := Wizard(1, InitialDraft)

  predicate WizardOk(w: Wizard) {
    1 <= w.step <= TotalSteps && DraftOk(w.draft)
  }

  // ---------------------------------------------------------------------
  // Step validity

  /** Step 2 branches on the chosen role; the funding stage always holds a
      value, so its non-empty test never fails. */
  function StepTwoValid(d: Draft): (ok: bool)
    ensures d.role == Startup ==>
      (ok <==> HasVisible(d.startupName) && HasVisible(d.website) && |d.goals| > 0)
    ensures d.role == AngelInvestor || d.role == Vc ==>
      (ok <==> |d.industries| > 0 && |d.stages| > 0)
    ensures d.role == Unchosen || d.role == OtherRole ==> ok
  {
    if d.role == Startup then
      !IsBlank(d.startupName) && !IsBlank(d.website) && |d.goals| > 0
    else if d.role == AngelInvestor || d.role == Vc then
      |d.industries| > 0 && |d.stages| > 0
    else
      true
  }

  /** Whether the form on `step` may be left forwards (or submitted on step 4). */
  function StepValid(step: int, d: Draft): (ok: bool)
    ensures step == 1 ==> (ok <==> d.role != Unchosen)
    ensures step == 2 ==> (ok <==> StepTwoValid(d))
    ensures step == 3 ==> (ok <==> HasVisible(d.firstName) && HasVisible(d.lastName))
    ensures step == 4 ==>
      (ok <==> EmailPattern(d.email) && HasVisible(d.phoneNumber)
               && |d.password| >= 8 && d.password == d.confirmPassword)
    ensures !(1 <= step <= TotalSteps) ==> !ok
  {
    match step
    case 1 => d.role != Unchosen
    case 2 => StepTwoValid(d)
    case 3 => !IsBlank(d.firstName) && !IsBlank(d.lastName)
    case 4 =>
      EmailShaped(d.email) && !IsBlank(d.phoneNumber)
      && |d.password| >= 8 && d.password == d.confirmPassword
    case _ => false
  }

  // ---------------------------------------------------------------------
  // Navigation

  /** "Weiter": moves on only from a valid step that is not the last. */
  function NextStep(w: Wizard): (w': Wizard)
    ensures w'.draft == w.draft
    ensures WizardOk(w) ==> WizardOk(w')
    ensures w'.step != w.step ==> StepValid(w.step, w.draft) && w'.step == w.step + 1
    ensures StepValid(w.step, w.draft) && w.step < TotalSteps ==> w'.step == w.step + 1
    ensures w.step == TotalSteps ==> w' == w
  {
    if StepValid(w.step, w.draft) && w.step < TotalSteps then w.(step := w.step + 1) else w
  }

  /** "Zurück": moves back from any step after the first, valid or not. */
  function PrevStep(w: Wizard): (w': Wizard)
    ensures w'.draft == w.draft
    ensures WizardOk(w) ==> WizardOk(w')
    ensures w.step > 1 ==> w'.step == w.step - 1
    ensures w.step <= 1 ==> w' == w
  {
    if w.step > 1 then w.(step := w.step - 1) else w
  }

  // ---------------------------------------------------------------------
  // Segmented progress

  /** Fill state of each progress segment (index `i` stands for step i + 1):
      full when its step is already behind, or is the current step and valid. */
  function Segments(current: int, total: nat, valid: bool): (fills: seq<bool>)
    ensures |fills| == total
    ensures forall i :: 0 <= i < total && i + 1 < current ==> fills[i]
    ensures forall i :: 0 <= i < total && i + 1 > current ==> !fills[i]
    ensures 1 <= current <= total ==> fills[current - 1] == valid
  {
    seq(total, i requires 0 <= i < total => i + 1 < current || (i + 1 == current && valid))
  }

  function CountFull(fills: seq<bool>): nat {
    if |fills| == 0 then 0
    else CountFull(fills[..|fills| - 1]) + (if fills[|fills| - 1] then 1 else 0)
  }

  /** The bar shows `current - 1` full segments, plus one when the current
      step is valid (for any current step within the bar). */
  lemma {:induction false} SegmentsCount(current: int, total: nat, valid: bool)
    requires 1 <= current <= total
    ensures CountFull(Segments(current, total, valid)) == current - 1 + (if valid then 1 else 0)
  {
    SegmentsPrefixCount(current, total, valid);
  }

  lemma {:induction false} SegmentsPrefixCount(current: int, n: nat, valid: bool)
    requires 1 <= current
    ensures CountFull(Segments(current, n, valid)) ==
      (if n < current then n else current - 1 + (if valid then 1 else 0))
  {
    if n > 0 {
      assert Segments(current, n, valid)[..n - 1] == Segments(current, n - 1, valid);
      SegmentsPrefixCount(current, n - 1, valid);
    }
  }

  // ---------------------------------------------------------------------
  // Funding-stage slider

  /** `findIndex`: the first position of `x`, or -1. */
  function FindIndex<T(==)>(xs: seq<T>, x: T): (r: int)
    ensures r == -1 <==> x !in xs
    ensures r != -1 ==> 0 <= r < |xs| && xs[r] == x && x !in xs[..r]
  {
    if |xs| == 0 then -1
    else if xs[0] == x then 0
    else
      var r := FindIndex(xs[1..], x);
      if r == -1 then -1
      else
        assert xs[..r + 1] == [xs[0]] + xs[1..][..r];
        r + 1
  }

  /** The slider position shown for a funding stage. */
  function SliderPosition(f: FundingStage): (pos: int)
    ensures 0 <= pos < |FundingStageOptions| && FundingStageOptions[pos] == f
  {
    assert f == FundingStageOptions[0] || f == FundingStageOptions[1] || f == FundingStageOptions[2]
        || f == FundingStageOptions[3] || f == FundingStageOptions[4];
    FindIndex(FundingStageOptions, f)
  }

  /** The funding stage a slider position selects (`fundingStageOptions[v].id`). */
  function SliderStage(pos: int): (f: FundingStage)
    requires 0 <= pos < |FundingStageOptions|
    ensures SliderPosition(f) == pos
  {
    FundingStageOptions[pos]
  }

  // ---------------------------------------------------------------------
  // Multi-select toggles

  /** `xs.filter(x => x !== v)`. */
  function Without<T(==)>(xs: seq<T>, v: T): (r: seq<T>)
    ensures v !in r
    ensures multiset(r) == multiset(xs)[v := 0]
    ensures v !in xs ==> r == xs
  {
    if |xs| == 0 then []
    else
      assert xs == [xs[0]] + xs[1..];
      (if xs[0] == v then [] else [xs[0]]) + Without(xs[1..], v)
  }

  /** The filter works element by element: on a single element it keeps
      it exactly when it differs from the value... */
  lemma WithoutOne<T>(x: T, v: T)
    ensures Without([x], v) == (if x == v then [] else [x])
  {
    assert [x][1..] == [];
  }

  /** ...and filtering a concatenation filters each part, so the kept
      elements stay in their order. */
  lemma {:induction false} WithoutConcat<T>(xs: seq<T>, ys: seq<T>, v: T)
    ensures Without(xs + ys, v) == Without(xs, v) + Without(ys, v)
    decreases |xs|
  {
    if |xs| == 0 {
      assert xs + ys == ys;
    } else {
      assert (xs + ys)[0] == xs[0];
      assert (xs + ys)[1..] == xs[1..] + ys;
      WithoutConcat(xs[1..], ys, v);
    }
  }

  lemma {:induction false} WithoutAppend<T>(xs: seq<T>, v: T)
    ensures Without(xs + [v], v) == Without(xs, v)
  {
    if |xs| > 0 {
      assert (xs + [v])[1..] == xs[1..] + [v];
      WithoutAppend(xs[1..], v);
    } else {
      assert xs + [v] == [v];
    }
  }

  /** The industry picker: selecting an entry removes it when present and
      appends it otherwise. */
  function ToggleIndustry(selected: seq<string>, v: string): (r: seq<string>)
    ensures v in selected ==> v !in r && multiset(r) == multiset(selected)[v := 0]
    ensures v in selected ==> r == Without(selected, v)
    ensures v !in selected ==> r == selected + [v]
  {
    if v in selected then Without(selected, v) else selected + [v]
  }

  /** Picking an unselected industry twice gives the original list back. */
  lemma ToggleIndustryTwice(selected: seq<string>, v: string)
    requires v !in selected
    ensures ToggleIndustry(ToggleIndustry(selected, v), v) == selected
  {
    WithoutAppend(selected, v);
  }

  /** A goal or stage checkbox: checking appends the id, unchecking filters
      every copy of it out. */
  function CheckboxChange(ids: seq<string>, id: string, checked: bool): (r: seq<string>)
    ensures checked ==> r == ids + [id]
    ensures !checked ==> id !in r && multiset(r) == multiset(ids)[id := 0]
    ensures !checked ==> r == Without(ids, id)
  {
    if checked then ids + [id] else Without(ids, id)
  }

  /** The checkbox is shown checked exactly when the id is in the list, so a
      click reports the opposite; then it behaves like the industry toggle. */
  lemma CheckboxClickIsToggle(ids: seq<string>, id: string)
    ensures CheckboxChange(ids, id, id !in ids) == ToggleIndustry(ids, id)
  {
  }

  // The four stage captions, slugged step by step. The replacement lemmas
  // take the lowered caption as a parameter so that the verifier unfolds
  // `ReplaceFrom` only as far as the proof asks.

  lemma LowerFamilyFriends()
    ensures ToLower("Family & Friends") == "family & friends"
  {
  }

  lemma LowerPreSeed()
    ensures ToLower("Pre-Seed") == "pre-seed"
  {
  }

  lemma LowerSeed()
    ensures ToLower("Seed") == "seed"
  {
  }

  lemma LowerSeriesA()
    ensures ToLower("Series A") == "series a"
  {
  }

  /** A lowered caption without spaces passes both replacements unchanged. */
  lemma SpacelessUnchanged(x: string)
    requires ' ' !in x
    ensures ReplaceAll(x, " & ", "-") == x && ReplaceAll(x, " ", "-") == x
  {
    assert x[0..] == x;
    ReplaceFromIdentity(x, " & ", "-", 0);
    ReplaceFromIdentity(x, " ", "-", 0);
  }

  lemma FamilyFriendsOccurs(x: string)
    requires x == "family & friends"
    ensures |x| == 16 && OccursAt(x, 6, " & ", 0)
  {
  }

  lemma FamilyFriendsTail(x: string)
    requires x == "family & friends"
    ensures ReplaceFrom(x, " & ", "-", 9) == "friends"
  {
    assert x[9..] == "friends";
    ReplaceFromIdentity(x, " & ", "-", 9);
  }

  lemma FamilyFriendsAt6(x: string)
    requires x == "family & friends"
    ensures ReplaceFrom(x, " & ", "-", 6) == "-friends"
  {
    FamilyFriendsOccurs(x);
    FamilyFriendsTail(x);
  }

  lemma FamilyFriendsJoin(x: string)
    requires x == "family & friends"
    ensures ReplaceAll(x, " & ", "-") == "family-friends"
  {
    FamilyFriendsAt6(x);
    ReplaceFromSkip(x, " & ", "-", 0, 6);
    assert x[0..6] == "family";
    assert ReplaceAll(x, " & ", "-") == ReplaceFrom(x, " & ", "-", 0);
  }

  lemma SeriesAReplace(x: string)
    requires x == "series a"
    ensures ReplaceAll(x, " & ", "-") == x
    ensures ReplaceAll(x, " ", "-") == "series-a"
  {
    ReplaceFromSkip(x, " & ", "-", 0, 6);
    assert OccursAt(x, 6, " ", 0);
    assert x[7..] == "a";
    ReplaceFromIdentity(x, " ", "-", 7);
    ReplaceFromSkip(x, " ", "-", 0, 6);
  }

  lemma StageSlugFamilyFriends()
    ensures Slug("Family & Friends") == "family-friends"
  {
    LowerFamilyFriends();
    FamilyFriendsJoin("family & friends");
    SpacelessUnchanged("family-friends");
  }

  lemma StageSlugPreSeed()
    ensures Slug("Pre-Seed") == "pre-seed"
  {
    LowerPreSeed();
    SpacelessUnchanged("pre-seed");
  }

  lemma StageSlugSeed()
    ensures Slug("Seed") == "seed"
  {
    LowerSeed();
    SpacelessUnchanged("seed");
  }

  lemma StageSlugSeriesA()
    ensures Slug("Series A") == "series-a"
  {
    LowerSeriesA();
    SeriesAReplace("series a");
  }

  /** The four stage captions slug to exactly the four investment-stage ids. */
  lemma StageSlugs(i: int)
    requires 0 <= i < |StageCaptions|
    ensures Slug(StageCaptions[i]) == InvestmentStageIds[i]
  {
    if i == 0 {
      StageSlugFamilyFriends();
    } else if i == 1 {
      StageSlugPreSeed();
    } else if i == 2 {
      StageSlugSeed();
    } else {
      StageSlugSeriesA();
    }
  }

  /** The id of a stage checkbox, `stage.toLowerCase().replace(/ & /g, "-").replace(/ /g, "-")`. */
  function StageId(i: int): (id: string)
    requires 0 <= i < |StageCaptions|
    ensures ' ' !in id
    ensures id == InvestmentStageIds[i]
  {
    StageSlugs(i);
    Slug(StageCaptions[i])
  }

  /** The id of a goal checkbox (cast to the goal type without a check). */
  function GoalId(i: int): (id: string)
    requires 0 <= i < |GoalCaptions|
    ensures ' ' !in id
  {
    Slug(GoalCaptions[i])
  }

  // ---------------------------------------------------------------------
  // Field edits and whole runs of the wizard

  datatype Edit =
    | ChooseRole(role: Role)
    | SetStartupName(text: string)
    | SetWebsite(text: string)
    | SetFundingStage(stage: FundingStage)
    | CheckGoal(goalIndex: int, checked: bool)
    | SelectIndustry(industry: string)
    | CheckStage(stageIndex: int, checked: bool)
    | SlideTicketSize(position: int)
    | SetFirstName(text: string)
    | SetLastName(text: string)
    | SetLinkedIn(text: string)
    | SetEmail(text: string)
    | SetPhoneNumber(text: string)
    | SetPassword(text: string)
    | SetConfirmPassword(text: string)

  /** Edits the form can produce: checkbox indices address a caption and the
      ticket slider runs over 0..5. */
  predicate EditOk(e: Edit) {
    match e
    case CheckGoal(i, _) => 0 <= i < |GoalCaptions|
    case CheckStage(i, _) => 0 <= i < |StageCaptions|
    case SlideTicketSize(p) => 0 <= p < |TicketSizeLabels|
    case _ => true
  }

  /** One form handler, `{...prev, field: value}`: every edit sets its own
      field and keeps all the others. */
  function ApplyEdit(d: Draft, e: Edit): (d': Draft)
    requires EditOk(e)
    ensures DraftOk(d) ==> DraftOk(d')
    ensures e.ChooseRole? ==> d' == d.(role := e.role)
    ensures e.SetStartupName? ==> d' == d.(startupName := e.text)
    ensures e.SetWebsite? ==> d' == d.(website := e.text)
    ensures e.SetFundingStage? ==> d' == d.(fundingStage := e.stage)
    ensures e.CheckGoal? ==> d' == d.(goals := CheckboxChange(d.goals, GoalId(e.goalIndex), e.checked))
    ensures e.SelectIndustry? ==> d' == d.(industries := ToggleIndustry(d.industries, e.industry))
    ensures e.CheckStage? ==> d' == d.(stages := CheckboxChange(d.stages, StageId(e.stageIndex), e.checked))
    ensures e.SlideTicketSize? ==> d' == d.(ticketSize := e.position)
    ensures e.SetFirstName? ==> d' == d.(firstName := e.text)
    ensures e.SetLastName? ==> d' == d.(lastName := e.text)
    ensures e.SetLinkedIn? ==> d' == d.(linkedIn := e.text)
    ensures e.SetEmail? ==> d' == d.(email := e.text)
    ensures e.SetPhoneNumber? ==> d' == d.(phoneNumber := e.text)
    ensures e.SetPassword? ==> d' == d.(password := e.text)
    ensures e.SetConfirmPassword? ==> d' == d.(confirmPassword := e.text)
  {
    match e
    case ChooseRole(r) => d.(role := r)
    case SetStartupName(t) => d.(startupName := t)
    case SetWebsite(t) => d.(website := t)
    case SetFundingStage(f) => d.(fundingStage := f)
    case CheckGoal(i, c) => d.(goals := CheckboxChange(d.goals, GoalId(i), c))
    case SelectIndustry(v) => d.(industries := ToggleIndustry(d.industries, v))
    case CheckStage(i, c) => d.(stages := CheckboxChange(d.stages, StageId(i), c))
    case SlideTicketSize(p) => d.(ticketSize := p)
    case SetFirstName(t) => d.(firstName := t)
    case SetLastName(t) => d.(lastName := t)
    case SetLinkedIn(t) => d.(linkedIn := t)
    case SetEmail(t) => d.(email := t)
    case SetPhoneNumber(t) => d.(phoneNumber := t)
    case SetPassword(t) => d.(password := t)
    case SetConfirmPassword(t) => d.(confirmPassword := t)
  }

  datatype Event = Change(edit: Edit) | Next | Prev

  function Step(w: Wizard, ev: Event): Wizard
    requires ev.Change? ==> EditOk(ev.edit)
  {
    match ev
    case Change(e) => w.(draft := ApplyEdit(w.draft, e))
    case Next => NextStep(w)
    case Prev => PrevStep(w)
  }

  predicate EventsOk(evs: seq<Event>) {
    forall k :: 0 <= k < |evs| ==> (evs[k].Change? ==> EditOk(evs[k].edit))
  }

  function Run(w: Wizard, evs: seq<Event>): Wizard
    requires EventsOk(evs)
    decreases |evs|
  {
    if |evs| == 0 then w else Run(Step(w, evs[0]), evs[1..])
  }

  /** Whatever the user does, the wizard stays on one of its four steps and the
      ticket-size index stays on a label. */
  lemma {:induction false} RunKeepsWizardOk(w: Wizard, evs: seq<Event>)
    requires WizardOk(w) && EventsOk(evs)
    ensures WizardOk(Run(w, evs))
    decreases |evs|
  {
    if |evs| > 0 {
      RunKeepsWizardOk(Step(w, evs[0]), evs[1..]);
    }
  }

  // ---------------------------------------------------------------------
  // Final submission

  datatype Row =
    | StartupDetailsRow(userId: string, startupName: string, website: string, fundingStage: string, description: string)
    | StartupGoalRow(userId: string, goal: string)
    | InvestorDetailsRow(userId: string, ticketSizeLabel: string)
    | InvestorIndustryRow(userId: string, industry: string)
    | InvestorStageRow(userId: string, stage: string)

  /** One `insert` call: a table and the rows it writes. */
  datatype Insert = Insert(table: string, rows: seq<Row>)

  function GoalRows(userId: string, goals: seq<string>): seq<Row> {
    seq(|goals|, i requires 0 <= i < |goals| => StartupGoalRow(userId, goals[i]))
  }

  function IndustryRows(userId: string, industries: seq<string>): seq<Row> {
    seq(|industries|, i requires 0 <= i < |industries| => InvestorIndustryRow(userId, industries[i]))
  }

  function StageRows(userId: string, stages: seq<string>): seq<Row> {
    seq(|stages|, i requires 0 <= i < |stages| => InvestorStageRow(userId, stages[i]))
  }

  /** Reads back the list a batch of goal, industry or stage rows was made from. */
  function Values(rows: seq<Row>): (vs: seq<string>)
    ensures |vs| == |rows|
  {
    seq(|rows|, i requires 0 <= i < |rows| =>
      match rows[i]
      case StartupGoalRow(_, g) => g
      case InvestorIndustryRow(_, v) => v
      case InvestorStageRow(_, v) => v
      case _ => "")
  }

  predicate AllFor(plan: seq<Insert>, userId: string) {
    forall i, j :: 0 <= i < |plan| && 0 <= j < |plan[i].rows| ==> plan[i].rows[j].userId == userId
  }

  /** The inserts made after the account exists, in order. */
  function WritePlan(d: Draft, userId: string): (plan: seq<Insert>)
    requires DraftOk(d)
    ensures AllFor(plan, userId)
    ensures d.role == Startup ==>
      && |plan| == 2
      && plan[0] == Insert("startup_details",
           [StartupDetailsRow(userId, d.startupName, d.website, FundingStageId(d.fundingStage), "Test")])
      && plan[1].table == "startup_goals" && Values(plan[1].rows) == d.goals
      && (forall j :: 0 <= j < |plan[1].rows| ==> plan[1].rows[j].StartupGoalRow?)
    ensures d.role == AngelInvestor || d.role == Vc ==>
      && |plan| == 3
      && plan[0] == Insert("investor_details", [InvestorDetailsRow(userId, TicketSizeLabels[d.ticketSize])])
      && plan[1].table == "investor_industries" && Values(plan[1].rows) == d.industries
      && (forall j :: 0 <= j < |plan[1].rows| ==> plan[1].rows[j].InvestorIndustryRow?)
      && plan[2].table == "investor_stages" && Values(plan[2].rows) == d.stages
      && (forall j :: 0 <= j < |plan[2].rows| ==> plan[2].rows[j].InvestorStageRow?)
    ensures d.role == OtherRole || d.role == Unchosen ==> plan == []
  {
    match d.role
    case Startup =>
      [ Insert("startup_details",
          [StartupDetailsRow(userId, d.startupName, d.website, FundingStageId(d.fundingStage), "Test")]),
        Insert("startup_goals", GoalRows(userId, d.goals)) ]
    case AngelInvestor | Vc =>
      [ Insert("investor_details", [InvestorDetailsRow(userId, TicketSizeLabels[d.ticketSize])]),
        Insert("investor_industries", IndustryRows(userId, d.industries)),
        Insert("investor_stages", StageRows(userId, d.stages)) ]
    case _ => []
  }

  /** Where the browser goes after a successful submission. */
  function RedirectTarget(r: Role): (target: string)
    ensures target == "/dashboard" <==> r == Startup
    ensures target == "/dashboard" || target == "/feed"
  {
    if r == Startup then "/dashboard" else "/feed"
  }

  /** What the account service answers to the sign-up request. */
  datatype SignUpReply = SignedUp(userId: string) | SignUpRejected(message: string) | NoUser

  /** The service's message travels with every error, as `setError(e.message)`
      shows it; the missing user carries no service message. */
  datatype SignupError = AuthError(message: string) | UserNotCreated | InsertFailed(table: string, message: string)

  /** The first insert whose reply carries an error: its position in the write
      plan and the service's message. */
  datatype InsertError = InsertError(position: nat, message: string)

  datatype SubmitOutcome =
    | NotSubmitted
    | Failed(error: SignupError, written: seq<Insert>)
    | Redirected(target: string, written: seq<Insert>)

  /** The final button. `failingInsert` is the first insert whose reply
      carries an error (None: all succeed). Nothing written before a failure
      is rolled back. */
  function Submit(w: Wizard, reply: SignUpReply, failingInsert: Option<InsertError>): (r: SubmitOutcome)
    requires DraftOk(w.draft)
    ensures !StepValid(w.step, w.draft) <==> r.NotSubmitted?
    ensures StepValid(w.step, w.draft) && !reply.SignedUp? ==> r.Failed? && r.written == []
    ensures StepValid(w.step, w.draft) && reply.SignUpRejected? ==> r.error == AuthError(reply.message)
    ensures StepValid(w.step, w.draft) && reply.NoUser? ==> r.error == UserNotCreated
    ensures StepValid(w.step, w.draft) && reply.SignedUp? && failingInsert.Some? && failingInsert.value.position < |WritePlan(w.draft, reply.userId)|
      ==>
      var plan := WritePlan(w.draft, reply.userId);
      var k := failingInsert.value.position;
      r == Failed(InsertFailed(plan[k].table, failingInsert.value.message), plan[..k])
    ensures reply.SignedUp? && r.Failed? ==>
      var plan := WritePlan(w.draft, reply.userId);
      |r.written| < |plan| && r.written == plan[..|r.written|]
      && failingInsert.Some?
      && r.error == InsertFailed(plan[|r.written|].table, failingInsert.value.message)
    ensures r.Redirected? ==>
      && reply.SignedUp?
      && r.written == WritePlan(w.draft, reply.userId)
      && (r.target == "/dashboard" <==> w.draft.role == Startup)
      && (r.target == "/feed" <==> w.draft.role != Startup)
    ensures StepValid(w.step, w.draft) && reply.SignedUp?
      && (failingInsert.None? || failingInsert.value.position >= |WritePlan(w.draft, reply.userId)|)
      ==> r.Redirected?
  {
    if !StepValid(w.step, w.draft) then NotSubmitted
    else
      match reply
      case SignUpRejected(m) => Failed(AuthError(m), [])
      case NoUser => Failed(UserNotCreated, [])
      case SignedUp(uid) =>
        var plan := WritePlan(w.draft, uid);
        if failingInsert.Some? && failingInsert.value.position < |plan| then
          var k := failingInsert.value.position;
          Failed(InsertFailed(plan[k].table, failingInsert.value.message), plan[..k])
        else
          Redirected(RedirectTarget(w.draft.role), plan)
  }
}

=== FILE: text.dfy ===
/** String helpers the forms rely on: `trim()`, `toLowerCase()`, literal
    global `replace`, the label-to-id slug, and the unanchored email test
    `/\S+@\S+\.\S+/`. Characters are restricted to a fixed ASCII whitespace
    set and ASCII case mapping. */
module Text {

  /** The whitespace characters `trim()` strips and `\s` matches (ASCII part). */
  predicate IsWhitespace(c: char) {
    c == ' ' || c == '\t' || c == '\n' || c == '\r' || c == 11 as char || c == 12 as char
  }

  predicate AllWhitespace(s: string) {
    forall k :: 0 <= k < |s| ==> IsWhitespace(s[k])
  }

  /** The meaning of `s.trim() !== ""`: some character is not whitespace. */
  ghost predicate HasVisible(s: string) {
    exists k :: 0 <= k < |s| && !IsWhitespace(s[k])
  }

  /** Number of whitespace characters at the front of `s`. */
  function LeadingWhitespace(s: string): (n: nat)
    ensures n <= |s|
    ensures AllWhitespace(s[..n])
    ensures n < |s| ==> !IsWhitespace(s[n])
  {
    if |s| == 0 || !IsWhitespace(s[0]) then 0
    else
      var m := LeadingWhitespace(s[1..]);
      1 + m
  }

  /** Number of whitespace characters at the back of `s`. */
  function TrailingWhitespace(s: string): (n: nat)
    ensures n <= |s|
    ensures AllWhitespace(s[|s| - n..])
    ensures n < |s| ==> !IsWhitespace(s[|s| - n - 1])
  {
    if |s| == 0 || !IsWhitespace(s[|s| - 1]) then 0
    else
      var t := s[..|s| - 1];
      var m := TrailingWhitespace(t);
      assert s[|s| - (1 + m)..] == t[|t| - m..] + [s[|s| - 1]];
      1 + m
  }

  /** `String.prototype.trim`: drops leading and trailing whitespace. */
  function Trim(s: string): (r: string)
    ensures |r| <= |s|
    ensures r == [] <==> AllWhitespace(s)
    ensures r != [] ==> !IsWhitespace(r[0]) && !IsWhitespace(r[|r| - 1])
    ensures AllWhitespace(s) <==> !HasVisible(s)
    ensures exists i, j :: 0 <= i <= j <= |s| && r == s[i..j] && AllWhitespace(s[..i]) && AllWhitespace(s[j..])
  {
    var i := LeadingWhitespace(s);
    var t := s[i..];
    var n := TrailingWhitespace(t);
    assert t[..|t| - n] == s[i..|s| - n] && t[|t| - n..] == s[|s| - n..];
    assert i == |s| <== AllWhitespace(s);
    assert i < |s| ==> t[0] == s[i];
    assert n < |t| <== i < |s|;
    assert AllWhitespace(s) <== i == |s| by {
      if i == |s| {
        assert s == s[..i];
      }
    }
    t[..|t| - n]
  }

  /** The form's blank test, `s.trim() === ""`. */
  predicate IsBlank(s: string)
    ensures IsBlank(s) <==> !HasVisible(s)
  {
    Trim(s) == ""
  }

  function LowerChar(c: char): char {
    if 'A' <= c <= 'Z' then (c as int + 32) as char else c
  }

  /** `toLowerCase()` restricted to ASCII letters. */
  function ToLower(s: string): (r: string)
    ensures |r| == |s|
    ensures forall k :: 0 <= k < |r| ==> !('A' <= r[k] <= 'Z')
    ensures forall k :: 0 <= k < |r| ==> ('a' <= r[k] <= 'z' <==> 'a' <= s[k] <= 'z' || 'A' <= s[k] <= 'Z')
    ensures forall k :: 0 <= k < |r| ==> !('A' <= s[k] <= 'Z' || 'a' <= s[k] <= 'z') ==> r[k] == s[k]
    ensures forall k :: 0 <= k < |r| ==> 'a' <= s[k] <= 'z' ==> r[k] == s[k]
    ensures forall k :: 0 <= k < |r| ==> 'A' <= s[k] <= 'Z' ==> r[k] as int == s[k] as int + 32
  {
    seq(|s|, k requires 0 <= k < |s| => LowerChar(s[k]))
  }

  /** `pat` occurs in `s` at position `i` (compared from its `k`-th character on). */
  predicate OccursAt(s: string, i: nat, pat: string, k: nat)
    requires i + |pat| <= |s| && k <= |pat|
    ensures OccursAt(s, i, pat, k) <==> s[i + k..i + |pat|] == pat[k..]
    decreases |pat| - k
  {
    k == |pat| || (s[i + k] == pat[k] && OccursAt(s, i, pat, k + 1))
  }

  /** `s.replace(/pat/g, rep)` for a literal pattern: leftmost, non-overlapping
      occurrences, scanning left to right from position `i`. */
  function ReplaceFrom(s: string, pat: string, rep: string, i: nat): (r: string)
    requires |pat| > 0 && i <= |s|
    ensures |rep| == |pat| ==> |r| == |s| - i
    decreases |s| - i
  {
    if |s| - i < |pat| then s[i..]
    else if OccursAt(s, i, pat, 0) then rep + ReplaceFrom(s, pat, rep, i + |pat|)
    else [s[i]] + ReplaceFrom(s, pat, rep, i + 1)
  }

  /** `s.replace(/pat/g, rep)`: a same-length replacement keeps the length, a
      text without the pattern's first character is returned as it is, and a
      one-character pattern absent from the replacement is gone afterwards. */
  function ReplaceAll(s: string, pat: string, rep: string): (r: string)
    requires |pat| > 0
    ensures |rep| == |pat| ==> |r| == |s|
    ensures pat[0] !in s ==> r == s
    ensures |pat| == 1 && pat[0] !in rep ==> pat[0] !in r
  {
    ReplaceFromStart(s, pat, rep);
    ReplaceFrom(s, pat, rep, 0)
  }

  lemma ReplaceFromStart(s: string, pat: string, rep: string)
    requires |pat| > 0
    ensures pat[0] !in s ==> ReplaceFrom(s, pat, rep, 0) == s
    ensures |pat| == 1 && pat[0] !in rep ==> pat[0] !in ReplaceFrom(s, pat, rep, 0)
  {
    assert s[0..] == s;
    if pat[0] !in s {
      ReplaceFromIdentity(s, pat, rep, 0);
    }
    if |pat| == 1 && pat[0] !in rep {
      assert pat == [pat[0]];
      ReplaceFromRemoves(s, pat[0], rep, 0);
    }
  }

  /** Replacing every occurrence of a one-character pattern by a text that does
      not contain that character leaves no occurrence behind. */
  lemma {:induction false} ReplaceFromRemoves(s: string, c: char, rep: string, i: nat)
    requires c !in rep && i <= |s|
    ensures c !in ReplaceFrom(s, [c], rep, i)
    decreases |s| - i
  {
    if |s| - i >= 1 {
      ReplaceFromRemoves(s, c, rep, i + 1);
    }
  }

  /** A stretch in which the pattern cannot start is copied unchanged. */
  lemma {:induction false} ReplaceFromSkip(s: string, pat: string, rep: string, i: nat, j: nat)
    requires |pat| > 0 && i <= j <= |s|
    requires forall k :: i <= k < j ==> s[k] != pat[0]
    ensures ReplaceFrom(s, pat, rep, i) == s[i..j] + ReplaceFrom(s, pat, rep, j)
    decreases j - i
  {
    if i < j {
      if |s| - i < |pat| {
        assert s[i..j] + s[j..] == s[i..];
      } else {
        assert s[i..i + |pat|][0] == s[i];
        ReplaceFromSkip(s, pat, rep, i + 1, j);
        assert s[i..j] == [s[i]] + s[i + 1..j];
      }
    }
  }

  /** A text in which the pattern's first character never occurs from `i` on
      is left as it is. */
  lemma ReplaceFromIdentity(s: string, pat: string, rep: string, i: nat)
    requires |pat| > 0 && i <= |s|
    requires pat[0] !in s[i..]
    ensures ReplaceFrom(s, pat, rep, i) == s[i..]
  {
    assert forall k :: i <= k < |s| ==> s[k] == s[i..][k - i];
    ReplaceFromSkip(s, pat, rep, i, |s|);
  }

  /** The id a checkbox label becomes: lower-cased, then " & " and then every
      remaining space turned into "-". */
  function Slug(caption: string): (id: string)
    ensures ' ' !in id
  {
    ReplaceAll(ReplaceAll(ToLower(caption), " & ", "-"), " ", "-")
  }

  // ---------------------------------------------------------------------
  // The email test /\S+@\S+\.\S+/ (unanchored)

  /** The regular expression matches `s[p..q]` with the '@' at `a` and the
      '.' at `b`: three non-empty runs of non-whitespace around them. */
  ghost predicate EmailMatchAt(s: string, p: int, a: int, b: int, q: int) {
    && 0 <= p < a && a + 1 < b && b + 1 < q <= |s|
    && (forall k :: p <= k < a ==> !IsWhitespace(s[k]))
    && s[a] == '@'
    && (forall k :: a < k < b ==> !IsWhitespace(s[k]))
    && s[b] == '.'
    && (forall k :: b < k < q ==> !IsWhitespace(s[k]))
  }

  /** `/\S+@\S+\.\S+/.test(s)`: some substring matches. */
  ghost predicate EmailPattern(s: string) {
    exists p, a, b, q :: EmailMatchAt(s, p, a, b, q)
  }

  /** The shortest matches: one character before '@' and one after '.'. */
  ghost predicate EmailCore(s: string, a: int, b: int) {
    && 1 <= a && a + 1 < b && b + 1 < |s|
    && !IsWhitespace(s[a - 1]) && s[a] == '@'
    && (forall k :: a < k < b ==> !IsWhitespace(s[k]))
    && s[b] == '.' && !IsWhitespace(s[b + 1])
  }

  lemma EmailPatternCore(s: string)
    ensures EmailPattern(s) <==> exists a, b :: EmailCore(s, a, b)
  {
    if EmailPattern(s) {
      var p, a, b, q :| EmailMatchAt(s, p, a, b, q);
      assert EmailCore(s, a, b);
    }
    if exists a, b :: EmailCore(s, a, b) {
      var a, b :| EmailCore(s, a, b);
      assert EmailMatchAt(s, a - 1, a, b, b + 2);
    }
  }

  /** An '@' at `a` preceded by a non-whitespace character, followed by
      non-whitespace up to (not including) `i`. */
  ghost predicate OpenAt(s: string, a: int, i: int) {
    && 1 <= a < i <= |s|
    && s[a] == '@' && !IsWhitespace(s[a - 1])
    && (forall k :: a < k < i ==> !IsWhitespace(s[k]))
  }

  /** What the scanner knows before position `i`: no match ends earlier, and
      `at` is the earliest open '@' (or -1 when there is none). */
  ghost predicate ScanInv(s: string, i: int, at: int) {
    && 0 <= i <= |s|
    && (forall a, b :: EmailCore(s, a, b) ==> b >= i)
    && (at >= 0 ==> OpenAt(s, at, i) && forall a :: OpenAt(s, a, i) ==> at <= a)
    && (at < 0 ==> at == -1 && forall a :: !OpenAt(s, a, i))
  }

  /** One left-to-right pass that remembers the earliest open '@' of the
      current non-whitespace run. */
  function EmailScan(s: string, i: int, at: int): (r: bool)
    requires ScanInv(s, i, at)
    ensures r <==> exists a, b :: EmailCore(s, a, b)
    decreases |s| - i
  {
    if i == |s| then false
    else if IsWhitespace(s[i]) then
      ScanSkipWhitespace(s, i, at);
      EmailScan(s, i + 1, -1)
    else if s[i] == '.' && at >= 0 && at + 1 < i && i + 1 < |s| && !IsWhitespace(s[i + 1]) then
      assert EmailCore(s, at, i);
      true
    else if s[i] == '@' && at < 0 && i >= 1 && !IsWhitespace(s[i - 1]) then
      ScanOpen(s, i);
      EmailScan(s, i + 1, i)
    else
      ScanKeep(s, i, at);
      EmailScan(s, i + 1, at)
  }

  /** An open '@' before `i` stays open one step further exactly when the
      character at `i` is not whitespace. */
  lemma OpenStep(s: string, i: int, j: int)
    requires 0 <= i < |s| && j == i + 1
    ensures forall a :: a < i ==> (OpenAt(s, a, j) <==> OpenAt(s, a, i) && !IsWhitespace(s[i]))
  {
  }

  lemma ScanSkipWhitespace(s: string, i: int, at: int)
    requires ScanInv(s, i, at) && i < |s| && IsWhitespace(s[i])
    ensures ScanInv(s, i + 1, -1)
  {
    OpenStep(s, i, i + 1);
  }

  lemma ScanOpen(s: string, i: int)
    requires ScanInv(s, i, -1) && i < |s|
    requires s[i] == '@' && i >= 1 && !IsWhitespace(s[i - 1])
    ensures ScanInv(s, i + 1, i)
  {
    OpenStep(s, i, i + 1);
    assert OpenAt(s, i, i + 1);
    assert forall a, b :: EmailCore(s, a, b) ==> b >= i + 1;
    var j := i + 1;
    assert forall a :: OpenAt(s, a, j) ==> i <= a;
  }

  lemma ScanKeep(s: string, i: int, at: int)
    requires ScanInv(s, i, at) && i < |s| && !IsWhitespace(s[i])
    requires !(s[i] == '.' && at >= 0 && at + 1 < i && i + 1 < |s| && !IsWhitespace(s[i + 1]))
    requires !(s[i] == '@' && at < 0 && i >= 1 && !IsWhitespace(s[i - 1]))
    ensures ScanInv(s, i + 1, at)
  {
    OpenStep(s, i, i + 1);
    forall a, b | EmailCore(s, a, b) && b == i
      ensures OpenAt(s, a, i)
    {
    }
    assert forall a, b :: EmailCore(s, a, b) ==> b >= i + 1;
    var j := i + 1;
    if at >= 0 {
      assert OpenAt(s, at, j);
      assert forall a :: OpenAt(s, a, j) ==> at <= a;
    } else {
      assert forall a :: !OpenAt(s, a, j);
    }
  }

  /** The compiled email test, equivalent to the regular expression. */
  function EmailShaped(s: string): (r: bool)
    ensures r <==> EmailPattern(s)
  {
    EmailPatternCore(s);
    EmailScan(s, 0, -1)
  }
}

=== FILE: upload.dfy ===
/** The founder's video upload: the 60-second duration gate at file
    selection, the upload button's enable rule, the storage path, and the
    upload itself (object store write, then the pitch upsert). */
module VideoUpload {
  import opened Common
  import opened PitchTable

  /** Longest accepted video, in seconds (inclusive). */
  const MaxDurationSeconds: real := 60.0

  datatype File = File(name: string)

  datatype UploadError =
    | TooLong
    | NoFileChosen
    | UserNotFound
    | StorageFailed(message: string)
    | DatabaseFailed(message: string)

  /** The text the component shows for an error: a service failure shows the
      service's own message, the component's own errors a fixed German text. */
  function Message(e: UploadError): (m: string)
    ensures e.StorageFailed? || e.DatabaseFailed? ==> m == e.message
    ensures e.TooLong? || e.NoFileChosen? || e.UserNotFound? ==> m != ""
  {
    match e
    case TooLong => "Dein Video darf maximal 60 Sekunden lang sein."
    case NoFileChosen => "Bitte wähle zuerst eine Videodatei aus."
    case UserNotFound => "Benutzer nicht gefunden."
    case StorageFailed(m) => m
    case DatabaseFailed(m) => m
  }

  /** The component's own errors read differently, so the founder can tell
      which check stopped them. */
  lemma OwnMessagesDistinct()
    ensures Message(TooLong) != Message(NoFileChosen)
    ensures Message(TooLong) != Message(UserNotFound)
    ensures Message(NoFileChosen) != Message(UserNotFound)
  {
  }

  /** Component state; `input` is what the file input element currently holds. */
  datatype Uploader = Uploader(uploading: bool, error: Option<UploadError>, file: Option<File>, input: Option<File>)

  const InitialUploader: Uploader := Uploader(false, None, None, None)

  /** The "Hochladen" button is disabled while uploading or with no file. */
  predicate UploadDisabled(u: Uploader) {
    u.uploading || u.file.None?
  }

  /** A file picked in the input, with the duration the browser probed for it
      (None when the metadata never loads). A too-long file only clears the
      input: an earlier accepted file stays. The input is disabled while
      uploading. */
  function SelectFile(u: Uploader, selected: Option<File>, duration: Option<real>): (u': Uploader)
    ensures selected.None? || u.uploading ==> u' == u
    ensures !u.uploading && selected.Some? && duration.Some? && duration.value > MaxDurationSeconds ==>
      u' == u.(error := Some(TooLong), input := None)
    ensures !u.uploading && selected.Some? && duration.Some? && duration.value <= MaxDurationSeconds ==>
      u'.file == selected && u'.error.None? && u'.input == selected
    ensures !u.uploading && selected.Some? && duration.None? ==> u' == u.(error := None, input := selected)
    ensures u'.uploading == u.uploading
    ensures u'.file == u.file || u'.file == selected
  {
    if u.uploading then u
    else match selected
    case None => u
    case Some(f) =>
      var picked := u.(error := None, input := selected);
      match duration
      case None => picked
      case Some(seconds) =>
        if seconds > MaxDurationSeconds then picked.(error := Some(TooLong), input := None)
        else picked.(file := selected)
  }

  /** `${user.id}/${Date.now()}-${file.name}`. */
  function StoragePath(userId: string, timestamp: string, fileName: string): (path: string)
    ensures |path| == |userId| + |timestamp| + |fileName| + 2
  {
    userId + "/" + timestamp + "-" + fileName
  }

  /** Reads owner, timestamp and file name back out of a storage path. */
  function ParseStoragePath(path: string): Option<(string, string, string)> {
    match SplitFirst(path, '/')
    case None => None
    case Some((owner, rest)) =>
      match SplitFirst(rest, '-')
      case None => None
      case Some((stamp, name)) => Some((owner, stamp, name))
  }

  /** A user id without '/' and a decimal timestamp (no '-') can be read back
      from the path; the file name may contain anything. */
  lemma StoragePathRoundTrip(userId: string, timestamp: string, fileName: string)
    requires '/' !in userId && '-' !in timestamp
    ensures ParseStoragePath(StoragePath(userId, timestamp, fileName)) == Some((userId, timestamp, fileName))
  {
    assert StoragePath(userId, timestamp, fileName) == userId + ['/'] + (timestamp + "-" + fileName);
    SplitFirstJoin(userId, '/', timestamp + "-" + fileName);
    assert timestamp + "-" + fileName == timestamp + ['-'] + fileName;
    SplitFirstJoin(timestamp, '-', fileName);
  }

  /** The backend state the upload touches. */
  datatype Store = Store(objects: set<(string, string)>, pitches: seq<PitchRow>)

  /** Replies of the services the upload calls, in call order. */
  datatype Replies = Replies(
    user: Option<string>,
    timestamp: string,
    storageError: Option<string>,
    databaseError: Option<string>,
    freshId: string)

  datatype UploadResult = UploadResult(ui: Uploader, store: Store, refreshed: bool)

  /** The upload button's handler, run to completion. */
  function Upload(u: Uploader, s: Store, r: Replies): (res: UploadResult)
    requires OneRowPerUser(s.pitches)
    ensures OneRowPerUser(res.store.pitches)
    ensures !res.ui.uploading || (u.file.None? && u.uploading)
    ensures u.file.None? ==> res == UploadResult(u.(error := Some(NoFileChosen)), s, false)
    ensures u.file.Some? ==> !res.ui.uploading && res.ui.file == u.file
    ensures res.refreshed <==> res.ui.error.None?
    ensures res.refreshed ==>
      && r.user.Some? && u.file.Some?
      && var path := StoragePath(r.user.value, r.timestamp, u.file.value.name);
      && res.store.objects == s.objects + {(PitchBucket, path)}
      && res.store.pitches == Upsert(s.pitches, r.user.value, path, r.freshId)
    ensures !res.refreshed ==> res.store.pitches == s.pitches
    ensures u.file.Some? && r.user.None? ==> res.ui.error == Some(UserNotFound) && res.store == s
    ensures u.file.Some? && r.user.Some? && r.storageError.Some? ==>
      res.ui.error == Some(StorageFailed(r.storageError.value)) && res.store == s
    ensures u.file.Some? && r.user.Some? && r.storageError.None? && r.databaseError.Some? ==>
      && res.ui.error == Some(DatabaseFailed(r.databaseError.value))
      && res.store.objects == s.objects + {(PitchBucket, StoragePath(r.user.value, r.timestamp, u.file.value.name))}
  {
    match u.file
    case None => UploadResult(u.(error := Some(NoFileChosen)), s, false)
    case Some(f) =>
      var started := u.(uploading := true, error := None);
      var done := started.(uploading := false);
      match r.user
      case None => UploadResult(done.(error := Some(UserNotFound)), s, false)
      case Some(uid) =>
        var path := StoragePath(uid, r.timestamp, f.name);
        if r.storageError.Some? then UploadResult(done.(error := Some(StorageFailed(r.storageError.value))), s, false)
        else
          var stored := s.(objects := s.objects + {(PitchBucket, path)});
          if r.databaseError.Some? then
            UploadResult(done.(error := Some(DatabaseFailed(r.databaseError.value))), stored, false)
          else UploadResult(done, stored.(pitches := Upsert(s.pitches, uid, path, r.freshId)), true)
  }

  /** A click on the "Hochladen" button: a disabled button does nothing; an
      enabled one runs the upload, which never stops at the missing-file
      check and ends with the button enabled again. */
  function ClickUpload(u: Uploader, s: Store, r: Replies): (res: UploadResult)
    requires OneRowPerUser(s.pitches)
    ensures UploadDisabled(u) ==> res == UploadResult(u, s, false)
    ensures !UploadDisabled(u) ==> res == Upload(u, s, r)
    ensures !UploadDisabled(u) ==> res.ui.error != Some(NoFileChosen) && !UploadDisabled(res.ui)
  {
    if UploadDisabled(u) then UploadResult(u, s, false) else Upload(u, s, r)
  }

  /** With the button enabled there is a file, so the upload gets past its
      first check and always ends with the button usable again. */
  lemma EnabledButtonHasFile(u: Uploader, s: Store, r: Replies)
    requires OneRowPerUser(s.pitches) && !UploadDisabled(u)
    ensures Upload(u, s, r).ui.error != Some(NoFileChosen)
    ensures !UploadDisabled(Upload(u, s, r).ui)
  {
  }

  /** Each founder keeps at most one pitch, and a re-upload replaces the video
      of the existing one instead of adding a row. */
  lemma ReuploadReplaces(u: Uploader, s: Store, r: Replies)
    requires OneRowPerUser(s.pitches)
    requires r.user.Some? && HasRowFor(s.pitches, r.user.value)
    ensures var res := Upload(u, s, r);
      && |res.store.pitches| == |s.pitches|
      && (res.refreshed ==> SingleRowFor(res.store.pitches, r.user.value).value.videoUrl
                             == Some(StoragePath(r.user.value, r.timestamp, u.file.value.name)))
  {
  }
}
